=== FILE: README.md ===
# fonte-admin, list and record logic in Dafny

fonte-admin is an administration front end for a product catalogue. It manages products,
categories, subcategories, regions, contact messages and a media library, all stored in a
hosted Postgres database. Beside that sits a small edge function that mints upload
credentials for the ImageKit CDN. Almost everything the app does is a network call or
rendering. The logic that can be reasoned about is made of pure transformations of lists
and records, buried in React components. This project pulls those out as pure Dafny
functions over immutable sequences and proves what the code promises about them.

Modules, one per source file plus shared pieces:

- `Products`, `SubCategories`, `Categories`, `Regions`, `Messages`, `MediaLibrary` and
  `FilterSearch` follow the pages and the shared filter bar. They cover:
  - the list filters and their option lists;
  - dialog open and close;
  - form edits and save payloads;
  - mapping rows;
  - local list updates after a remote call.
- `Joins` covers both directions of a join table:
  - reading a row's nested targets back out of its mapping rows, dropping the nulls that
    deleted targets leave;
  - building the mapping rows written for a selection.
- `Persist` covers the call sequence of the save and delete handlers of the category,
  subcategory and region pages. It records which calls are made, in what order, and
  whether the handler ends in its success or its error branch. The database replies are
  parameters.
- `Cloudinary` covers the resize geometry of `compressImage` and the outcome of
  `uploadImage`.
- `ImageKitAuth` covers the credentials handler. It relies on:
  - `Base64`, the encoding of section 4 of RFC 4648, with a proved decode-after-encode
    round trip;
  - `Decimal`, the rendering and parsing of integers;
  - `Utf8`, what `TextEncoder` does.
- `Ids` models JavaScript values used as ids:
  - `Num(int) | Str(string)`, with `===`;
  - `String()`, a restricted `Number()`, and truthiness.
- `Text` covers ASCII `toLowerCase`, `includes`, and `trim` over the ECMAScript whitespace
  set. `Seqs` provides `Filter`, `Somes` (null dropping), `DropIndex` and subsequences.
  `Wrappers` provides `Option` and `Result`.

Outside calls are parameters:
- database and CDN replies, including success flags, created keys and upload results;
- the clock (`nowMs`);
- HMAC-SHA1 (a `Signer` function);
- `slugify`.

## Model

| member | source | states |
|---|---|---|
| Products.RegionIds | src/pages/Products.tsx:440 | An absent mapping list gives no ids. Otherwise the ids are the mapping rows' nested region ids, one per row, in order. |
| Products.FilterProductsIsConjunction | src/pages/Products.tsx:415-448 | The staged filter (search, then category and subcategory, then regions) equals a single filter by the conjunction of the four criteria, each unconstrained when empty. |
| Products.FilterProductsSelects | src/pages/Products.tsx:415-448 | The shown list is a subsequence of the products in their original order. It holds exactly the products every criterion accepts. |
| Products.NoCriteriaShowsAll | src/pages/Products.tsx:415-448 | With all four criteria empty, the list equals the input. |
| Products.FilterProductsIdempotent | src/pages/Products.tsx:415-448 | Filtering the filtered list again with the same criteria returns it unchanged. |
| Products.RegionCriterion | src/pages/Products.tsx:438-442 | With a non-empty selection, a product passes the region stage exactly when some selected `Number(id)` equals one of its mapped region ids (OR semantics). A product with no mappings is dropped. |
| Products.RegionExample | src/pages/Products.tsx:438-442 | A product in regions {1, 2} passes a selection of {2, 3} and fails one of {3, 4}. |
| Products.OfCategory | src/pages/Products.tsx:452 | `filter(sc => sc.category_id === categoryId)` keeps, in order, exactly the subcategories of that category. |
| Products.OnFilterCategoryChange | src/pages/Products.tsx:689-693 | A filter-bar category change selects that category, clears the subcategory and keeps search and regions. The product dialog's subcategory list (`filteredSubCategories`) then holds only subcategories of that category. |
| Products.OptionsEffect | src/pages/Products.tsx:450-457 | The effect leaves the state alone when the category equals the previous render's. On a change it never touches the criteria, and it sets the dialog's list to every subcategory for an empty category, otherwise to exactly that category's subcategories. |
| Products.CategoryChangeSettles | src/pages/Products.tsx:450-457 | After a filter-bar category change and the effect's turn, the subcategory filter is empty. Re-choosing the current category leaves the handler's `=== categoryId` list, because the effect does not run. Reaching "All Categories" from another category offers every subcategory. A non-empty category offers its own subcategories, in order. |
| Products.RegionNumbers | src/pages/Products.tsx:687 | The stored selection is `Number(id)` of each chosen option, in order. |
| Products.RegionOptions | src/pages/Products.tsx:696 | The bar's region list is each region with its id as a decimal string. |
| Products.RegionNumbersRoundTrip | src/pages/Products.tsx:687-696 | Turning region ids into strings for the bar and back through `Number` returns the original ids. |
| Products.ClearAllShowsEverything | src/components/FilterSearch.tsx:67-72 | After clear-all on the products page and the effect's turn, every criterion is empty and the grid shows every product. The dialog's list is every subcategory when a category had been selected. When none had, the effect does not run, and the list stays the handler's `category_id === ''` list. |
| Products.OpenProduct | src/pages/Products.tsx:460-464 | Editing a product writes its category (`id.toString() \|\| ''`) into the page's `selectedCategory`, the grid's category criterion. Every other criterion, the subcategory included, is kept. Add clears the category and empties the dialog's list. |
| Products.OpenRefiltersGrid | src/pages/Products.tsx:431-448 | After opening a product, the grid keeps a product exactly when it passes the bar's search, region and subcategory criteria and lies in the opened product's category, whatever category the bar had selected. |
| Products.OpenHidesOtherCategories | src/pages/Products.tsx:460-464 | Concrete instance: with no filter set, opening a category-7 product hides the category-3 product from the grid. |
| Products.OpenProductCorrected | src/pages/Products.tsx:460-464 | With the dialog's category kept in the dialog, opening returns the filter state untouched. The dialog gets the product's category (empty for add) and exactly that category's subcategories. |
| Products.CorrectedOpenKeepsGrid | src/pages/Products.tsx:460-464 | The corrected open leaves the grid exactly as the bar set it. The dialog still offers the product's own subcategory. |
| Products.SetDefault | src/pages/Products.tsx:992-1000 | Switching a colour's default on leaves exactly one default, at that index. Switching it off clears only that entry. Length and all non-flag fields are unchanged. |
| Products.SetDefaultKeepsOneDefault | src/pages/Products.tsx:992-1000 | The switch preserves "at most one default colour". |
| Products.RemoveColor | src/pages/Products.tsx:1007 | Removing colour `i` deletes exactly element `i` and keeps the rest in order. An index outside the list removes nothing. Deleting the default colour leaves no default, because none is reassigned. |
| Products.AddColor | src/pages/Products.tsx:1018-1022 | Adding a colour appends one blank, non-default entry and keeps the existing ones. |
| Products.ColorEditsKeepOneDefault | src/pages/Products.tsx:1007-1022 | Removing or adding a colour never creates a second default. |
| Products.EditInstruction | src/pages/Products.tsx:1040-1042 | Editing an instruction replaces only entry `i`. |
| Products.RemoveInstruction | src/pages/Products.tsx:1048 | Removing instruction `i` deletes exactly that entry and keeps the rest in order. |
| Products.AddInstruction | src/pages/Products.tsx:1059-1063 | Adding an instruction appends one empty instruction. |
| Products.LoadForm | src/pages/Products.tsx:482-489 | Opening a product fills the region ids from its mappings. Form colour `i` has stored colour `i`'s name and code, its `image_url \|\| ''` and its `is_default \|\| false`. Instruction `i` is stored instruction `i`'s text. Absent lists become empty. |
| Products.RegionRows | src/pages/Products.tsx:579-582 | There is one mapping row per region id, in order, each carrying the product id. |
| Products.ColorRows | src/pages/Products.tsx:602-608 | There is one colour row per form colour, in order, carrying its name, code, image and default flag under the product id. |
| Products.CareRows | src/pages/Products.tsx:628-631 | There is one care row per instruction, in order. |
| Products.ReloadResavesSameRows | src/pages/Products.tsx:579-631 | Saving straight after opening writes back the same region ids, colour names and codes, and care instructions, in the same order. |
| Products.SavedColorsHaveOneDefault | src/pages/Products.tsx:992-1000 | Colour rows written after switching a default on carry exactly one default, at the switched index. |
| FilterSearch.OptionsFor | src/components/FilterSearch.tsx:62-65 | With no category selected, all subcategories are offered. Otherwise exactly those whose `category_id` equals the selection are offered. |
| FilterSearch.OptionsKeepOrder | src/components/FilterSearch.tsx:62-65 | The offered subcategories are a subsequence of the full list. |
| FilterSearch.DisabledOffersAll | src/components/FilterSearch.tsx:170 | While the subcategory selector is disabled (no category selected), every subcategory is its option. |
| FilterSearch.RegionSelection | src/components/FilterSearch.tsx:108-111 | The new selection holds exactly the master-list regions whose ids were chosen. |
| FilterSearch.RegionSelectionOrder | src/components/FilterSearch.tsx:108-111 | The new selection is in master-list order, a subsequence of it. |
| FilterSearch.RegionSelectionRoundTrip | src/components/FilterSearch.tsx:105-111 | If the master list has distinct ids, re-submitting the ids of a selection returns that selection. |
| FilterSearch.ShowClearIffNotCleared | src/components/FilterSearch.tsx:189 | The clear button is shown exactly when the selection is not the all-empty one. |
| FilterSearch.ClearAllClears | src/components/FilterSearch.tsx:67-72 | Clear-all emits empty search, no regions, no category and no subcategory. From any selection it reaches the empty one, which hides the button. |
| Joins.Nested | src/pages/Categories.tsx:120-125 | An absent mapping list stays absent. Otherwise the targets are the non-null nested targets, in order. Exactly the null rows are dropped, so there are never more targets than rows. |
| Joins.NestedOfLiveRows | src/pages/Categories.tsx:120-125 | Mapping rows whose targets all exist read back as exactly those targets. |
| Joins.LinkRows | src/pages/Categories.tsx:210-214 | There is one join row per selected target, in order, each with the owner id. |
| Joins.LinkRowsRoundTrip | src/pages/Categories.tsx:210-214 | The targets of the written rows are the selection. Fetched back through the join, they give the selection again. |
| Persist.ResolveUrl | src/pages/Categories.tsx:175-184 | Without a file, the stored URL or `''` is used. A chosen file's upload URL replaces it. A failed upload aborts. |
| Persist.OptionalKey | src/pages/Categories.tsx:191-192 | The key is present exactly for a non-empty URL, and then carries it. |
| Persist.ReplaceMappings | src/pages/Categories.tsx:204-221 | Mappings are deleted first. New rows are inserted only when there are any and the delete did not stop the run. Success is stated in terms of the replies. |
| Persist.Save | src/pages/Categories.tsx:195-248 | Update or insert comes first. A failing update or insert ends the run there. The create path never deletes mappings, and no run deletes the row. |
| Persist.DeleteBeforeInsert | src/pages/Categories.tsx:204-221 | In every save, every mapping delete precedes every mapping insert. |
| Persist.SavedWritesSelection | src/pages/SubCategories.tsx:287-304 | A successful save inserts the rows for the saved key exactly when there are any, and an update also deleted the old ones. |
| Persist.UncheckedDeleteIgnored | src/pages/SubCategories.tsx:288-291 | Where the mapping delete reply is unchecked, a failing delete changes nothing in the run. |
| Persist.CheckedDeleteStops | src/pages/Regions.tsx:209-214 | Where it is checked, a failing mapping delete ends the run before any insert. |
| Persist.DeleteWithMappings | src/pages/SubCategories.tsx:342-366 | A dismissed confirmation makes no call and ends the handler. A confirmed subcategory delete removes mappings, then the row. Its outcome is the row delete's. |
| Persist.DeleteNeedsConfirmation | src/pages/SubCategories.tsx:342-366 | Either delete makes a database call exactly when the user confirmed it. No delete inserts mapping rows. |
| Persist.MappingsGoFirst | src/pages/SubCategories.tsx:345-355 | In a confirmed delete, the mapping delete precedes the row delete. Its reply does not affect the run. |
| Persist.DeleteAlone | src/pages/Categories.tsx:270-285 | A dismissed confirmation makes no call. A confirmed category delete removes only the row. Its outcome is that delete's. |
| SubCategories.Reconstruct | src/pages/SubCategories.tsx:151-156 | The reconstructed regions are the non-null nested regions, in order, never more than the mapping rows. They are undefined exactly when the mapping list is. |
| SubCategories.FilterWithIsConjunction | src/pages/SubCategories.tsx:167-197 | The three stages form one order-preserving filter by their conjunction. The stages are search over name, description and category name; regions; and category. The category stage applies when the raw selected id is truthy and compares it with `===`, numeric or string. |
| SubCategories.CategorySelectionKeepsSameId | src/pages/SubCategories.tsx:190-193 | With a category chosen, a row passes the category stage exactly when its `category_id` is that id, of the same type. It is shown exactly when it also passes search and regions. |
| SubCategories.UndefinedRegionsDropped | src/pages/SubCategories.tsx:180-187 | A row with undefined regions is dropped by any region selection. |
| SubCategories.ConvertRegions | src/pages/SubCategories.tsx:377-381 | The widget's regions carry `String(id)`, the decimal rendering of the numeric id. |
| SubCategories.ConvertedIdsAreStrings | src/pages/SubCategories.tsx:377-381 | Every region chosen from the widget has a string id. |
| SubCategories.AsWrittenNeverShares | src/pages/SubCategories.tsx:184 | As written, a string selected id is never `===` a numeric fetched region id. |
| SubCategories.AsWrittenRegionFilterDropsAll | src/pages/SubCategories.tsx:180-187 | As written, any non-empty selection of widget regions empties the list. |
| SubCategories.AsWrittenWitness | src/pages/SubCategories.tsx:184 | A row in region 1 with region 1 selected is dropped as written and kept when corrected. |
| SubCategories.CorrectedRegionFilterMatchesIds | src/pages/SubCategories.tsx:180-187 | Comparing through `String`, a row passes exactly when one selected region has the id of one of its regions. |
| SubCategories.RegionChange | src/pages/SubCategories.tsx:368-375 | The handler stores the choice with ids passed through `String`, keeping names and codes. |
| SubCategories.RegionChangeKeepsWidgetChoice | src/pages/SubCategories.tsx:368-375 | Choices that already hold string ids are stored unchanged. |
| SubCategories.FormRegions | src/pages/SubCategories.tsx:209-213 | The form's regions are the row's regions with `String(id)`, the same name and `code \|\| ''`, or none when undefined. |
| SubCategories.Open | src/pages/SubCategories.tsx:199-226 | Edit copies every form field from the row: name, description, category, order, both URLs, and the row's regions as options. Add gives the blank form. The dialog is open either way. |
| SubCategories.Close | src/pages/SubCategories.tsx:228-240 | Closing resets to a closed dialog, no editing id, the blank form and the first tabs. |
| SubCategories.CloseForgetsRow | src/pages/SubCategories.tsx:199-240 | Closing after opening gives the same dialog, whichever row was opened. |
| SubCategories.RegionNumbers | src/pages/SubCategories.tsx:296 | Each selected region maps to `Number(id)`. |
| SubCategories.MappingRows | src/pages/SubCategories.tsx:294-297 | There is one mapping row per selected region, in order, with `Number(region.id)` and the subcategory id. |
| SubCategories.MappingRowsRoundTrip | src/pages/SubCategories.tsx:209-297 | Opening a row and saving it unchanged writes back its numeric region ids in order. |
| SubCategories.BuildPayload | src/pages/SubCategories.tsx:266-277 | The payload carries the name, the slug of the name, the description, the category and the order. `image_url` and `icon_url` are present only when non-empty. |
| SubCategories.OpenThenPayloadKeepsRow | src/pages/SubCategories.tsx:199-277 | Saving an opened row untouched sends its own name, description, category and order, and each non-empty stored URL. |
| SubCategories.Submit | src/pages/SubCategories.tsx:252-340 | A failed upload makes no database call. Otherwise the run is the save of the built payload with one mapping row per selected region, and the mapping delete is unchecked. |
| SubCategories.SubmitReplacesMappings | src/pages/SubCategories.tsx:279-304 | A successful update deletes the old mappings, then inserts one row per selected region, or none for an empty selection. |
| Categories.Reconstruct | src/pages/Categories.tsx:120-125 | The reconstructed regions are the non-null nested regions, in order, never more than the mapping rows. They are undefined exactly when the mapping list is. |
| Categories.Open | src/pages/Categories.tsx:133-154 | Edit copies name, `description \|\| ''`, `order_index` as the position, the URLs and `regions \|\| []`. Add gives the blank form. |
| Categories.Close | src/pages/Categories.tsx:156-167 | Closing resets to a closed dialog, the blank form and the first tabs. |
| Categories.CreateStartsBlank | src/pages/Categories.tsx:144-167 | Opening for create shows the same form as closing leaves. |
| Categories.BuildPayload | src/pages/Categories.tsx:186-193 | The payload sets `order_index` from `order_position`. `image_url` and `icon_url` are present only when non-empty. |
| Categories.ResavePayload | src/pages/Categories.tsx:133-193 | Re-saving an opened category sends its stored order and description, and keeps a stored URL exactly when it is non-empty. |
| Categories.MappingRows | src/pages/Categories.tsx:210-214 | There is one mapping row per selected region, in selection order, each with the category id. |
| Categories.ResaveMappingRows | src/pages/Categories.tsx:120-214 | Re-saving an opened category writes one mapping row per region that still exists, in order. |
| Categories.Submit | src/pages/Categories.tsx:169-258 | A failed upload makes no database call. Otherwise the run is the save of the built payload with unchecked mapping delete. |
| Categories.UpdateReplacesMappings | src/pages/Categories.tsx:195-221 | On update, mappings are deleted before any insert and an empty selection inserts nothing. A successful save inserts the selection's rows. |
| Regions.DefaultRegionShape | src/pages/Regions.tsx:31-52 | In the default form every text column is empty and business hours are off. |
| Regions.FilledMeansVisible | src/pages/Regions.tsx:191 | A column passes the guard exactly when it is text containing a non-whitespace character. |
| Regions.DefaultRegionInvalid | src/pages/Regions.tsx:191-194 | The default form fails validation. |
| Regions.UpdatePayload | src/pages/Regions.tsx:200 | The update payload is the form without `name`, `code` and `locale`. Every other column is carried unchanged. |
| Regions.HandleChange | src/pages/Regions.tsx:176-181 | A text change sets only that column. |
| Regions.HandleSwitchChange | src/pages/Regions.tsx:183-188 | A switch change sets only that column. |
| Regions.StrippedEditsNotSent | src/pages/Regions.tsx:176-204 | Edits to name, code or locale do not change the update payload. |
| Regions.RegionCategories | src/pages/Regions.tsx:145-147 | The region's categories are the non-null nested categories, in order. |
| Regions.Open | src/pages/Regions.tsx:138-167 | Edit makes the region row the form. Its categories become exactly the non-null fetched categories, in order, or stay as they were if the fetch failed. Add gives the default form and no categories. |
| Regions.ReopenRestoresSelection | src/pages/Regions.tsx:138-167 | Reopening a region whose mapping rows all reach existing categories selects exactly those categories again, in order. |
| Regions.Close | src/pages/Regions.tsx:169-174 | Closing restores the default form and empty categories. |
| Regions.ClosedFormInvalid | src/pages/Regions.tsx:169-194 | A just-closed dialog cannot be submitted. |
| Regions.MappingRows | src/pages/Regions.tsx:216-220 | There is one mapping row per selected category, in order, each with the region id. |
| Regions.Submit | src/pages/Regions.tsx:190-253 | An invalid form makes no call. Otherwise the first call updates with the stripped payload or inserts the whole form. |
| Regions.SubmitWritesSelection | src/pages/Regions.tsx:209-250 | A successful save with a known key inserts one `{region_id, category_id}` row per selected category, in order, exactly when the selection is non-empty. It inserts no other rows. An update deleted the old mappings first. |
| Regions.BlankNameOrCodeMakesNoCall | src/pages/Regions.tsx:191-194 | A blank name or code gives the error branch and no call. |
| Regions.UpdateSendsNoIdentity | src/pages/Regions.tsx:198-214 | An update never sends name, code or locale, whether or not the form is valid. For a valid form, a failing mapping delete ends the run before any insert. |
| Messages.MarkRead | src/pages/Messages.tsx:66-68 | Messages with the id become read. Everything else, and the length, is unchanged. |
| Messages.Remove | src/pages/Messages.tsx:85 | Exactly the messages with the id are removed. The others are kept. |
| Messages.HandleMarkAsRead | src/pages/Messages.tsx:57-74 | The list changes only when the update reported no error. |
| Messages.HandleDelete | src/pages/Messages.tsx:76-91 | The list changes only when the delete reported no error. |
| Messages.MarkReadIdempotent | src/pages/Messages.tsx:66-68 | Marking twice is marking once. |
| Messages.MarkReadAbsent | src/pages/Messages.tsx:66-68 | Marking an absent id changes nothing. |
| Messages.RemoveKeepsOrder | src/pages/Messages.tsx:85 | Delete keeps the remaining messages in order. |
| Messages.RemoveAfterMark | src/pages/Messages.tsx:66-85 | Deleting a message undoes any earlier mark of it. |
| Messages.MarkAndRemoveCommute | src/pages/Messages.tsx:66-85 | For handlers that run one after the other, marking one id and deleting another commute. |
| Messages.OverlapAsWritten | src/pages/Messages.tsx:57-91 | With both handlers in flight from one render, the final list is the later reply's own change applied to the rendered list. |
| Messages.OverlapLosesAnUpdate | src/pages/Messages.tsx:57-91 | Concrete instance: marking message 1 while deleting message 2 leaves 1 unread when the delete's reply is last, and brings 2 back when the mark's reply is last. |
| Messages.OverlapFunctional | src/pages/Messages.tsx:57-91 | With `prev =>` updates, each reply applies its change to the list left by the other. |
| Messages.OverlapFunctionalKeepsBoth | src/pages/Messages.tsx:57-91 | With `prev =>` updates, the final list is the same in either reply order. It holds no message with the deleted id, and the marked message is read. |
| MediaLibrary.HandleUpload | src/pages/MediaLibrary.tsx:64-116 | With no file, nothing happens. Otherwise steps run compress, then fetch credentials, then upload, with the file name and credentials. A failed credentials fetch means no upload. Progress ends idle. The list is unchanged or gains the uploaded item. |
| MediaLibrary.UploadAppendsOnSuccess | src/pages/MediaLibrary.tsx:99-103 | Exactly one item is appended, at the end, exactly when every step succeeded. |
| MediaLibrary.HandleDelete | src/pages/MediaLibrary.tsx:118-127 | Items with the file id are removed only after the service confirms. On failure the list is unchanged. |
| MediaLibrary.DeleteUndoesUpload | src/pages/MediaLibrary.tsx:99-121 | Deleting a freshly uploaded file restores the previous list. |
| Cloudinary.RoundDiv | src/lib/cloudinary.ts:74 | The result is `Math.round(a/b)`: the nearest integer, with ties rounded up. |
| Cloudinary.FitWithin | src/lib/cloudinary.ts:66-82 | Both sides are at most 800, and neither side grows. An image inside the box is unchanged. The longer side becomes 800 and the other side is rounded in proportion (squares count as portrait). |
| Cloudinary.FitWithinIdempotent | src/lib/cloudinary.ts:66-82 | Fitting a fitted size changes nothing. |
| Cloudinary.ThinImageLosesItsRows | src/lib/cloudinary.ts:72-76 | A 2000×1 image is drawn 800×0. |
| Cloudinary.UploadImage | src/lib/cloudinary.ts:24-104 | Compression comes before the POST of the fitted size. A fetch rejection rejects with its error. A non-JSON body rejects with the parse error, on either status. A non-ok JSON reply rejects with its message or 'Failed to upload image'. An ok JSON reply resolves with `secure_url`. No blob, from the encoder or from a canvas with a zero side, rejects with 'Failed to compress image' before any POST. A reader error rejects. An image that never loads leaves the promise pending. |
| Cloudinary.ThinImageFailsToCompress | src/lib/cloudinary.ts:72-96 | A 2000×1 image is never posted: its 800×0 canvas gives no blob, and the upload rejects with 'Failed to compress image'. |
| Cloudinary.UploadResolvesOnlyAfterPost | src/lib/cloudinary.ts:24-104 | The upload resolves exactly when the image decoded to a canvas with pixels, a blob was produced, and the POST got an ok JSON reply. It never resolves without the POST. |
| ImageKitAuth.Expire | supabase/functions/imagekit-auth/index.ts:29 | `expire` is the current second, floored, plus 3600. |
| ImageKitAuth.Handle | supabase/functions/imagekit-auth/index.ts:14-79 | OPTIONS returns 'ok' with the CORS headers. A missing key gives 500 with the credentials error. Every response starts with the CORS headers. With both keys set, a signed tag gives 200 with the public key as token, the computed expiry and the Base64 of the tag, with a JSON content type. A signer error gives 500 with its message. |
| ImageKitAuth.PreflightFirst | supabase/functions/imagekit-auth/index.ts:15-18 | The preflight answer is independent of keys, clock and signer. |
| ImageKitAuth.SignatureIsEncodedTag | supabase/functions/imagekit-auth/index.ts:35-57 | The signature Base64-decodes to the HMAC-SHA1 tag of the decimal `expire`, keyed by the private key. A 20-byte tag gives 28 characters. |
| ImageKitAuth.SignedMessageReadsBack | supabase/functions/imagekit-auth/index.ts:32-36 | The signed octets are the ASCII digits of `expire`, which parse back to it. |
| ImageKitAuth.DistinctSecondsDistinctMessages | supabase/functions/imagekit-auth/index.ts:29-32 | Requests in different seconds sign different messages. |
| Base64.Encode | supabase/functions/imagekit-auth/index.ts:51 | The output has 4⌈n/3⌉ characters from the alphabet or `=`. |
| Base64.DecodeEncode | supabase/functions/imagekit-auth/index.ts:51 | Decoding the encoding gives back the bytes. |
| Decimal.NatToDecimal | supabase/functions/imagekit-auth/index.ts:32 | The result is a non-empty string of digits with no leading zero. |
| Decimal.DigitsValueOfDecimal | supabase/functions/imagekit-auth/index.ts:32 | The digits of `n` have value `n`. |
| Decimal.IntToDecimalRoundTrip | supabase/functions/imagekit-auth/index.ts:32 | Parsing the rendering of an integer gives it back. |
| Decimal.IntToDecimalInjective | supabase/functions/imagekit-auth/index.ts:32 | Distinct integers render differently. |
| Utf8.EncodeAscii | supabase/functions/imagekit-auth/index.ts:36 | An ASCII string encodes to its character codes, one byte each. |
| Text.Lower | src/pages/Products.tsx:420-425 | Lowering keeps the length and lowers each character. |
| Text.Includes | src/pages/Products.tsx:422-424 | `includes` holds exactly when the query occurs at some position. |
| Text.Trim | src/pages/Regions.tsx:191 | The result occurs in the input with only whitespace before and after it, and has no whitespace at either end. It is empty exactly when the input is all whitespace. |
| Text.TrimUnpadded | src/pages/Regions.tsx:191 | A string without edge whitespace trims to itself. |
| Ids.StrictEqualsIsEquality | src/pages/SubCategories.tsx:184 | `===` on ids is value equality, and a string never equals a number. |
| Ids.NumberOfString | src/pages/SubCategories.tsx:296 | `Number(String(n))` is `n`. |
| Ids.StringOfNumInjective | src/pages/Products.tsx:430-433 | Distinct numbers have distinct `String` forms. |
| Seqs.Filter | src/pages/Products.tsx:421 | Filtering keeps only matching elements and every matching element. |
| Seqs.FilterCounts | src/pages/Products.tsx:421 | Each matching element is kept exactly as often as it occurs in the input. A non-matching element is never kept. |
| Seqs.FilterIsSubsequence | src/pages/Products.tsx:421 | A filter's output is a subsequence of its input. |
| Seqs.FilterFilter | src/pages/Products.tsx:415-448 | Two filters in a row are one filter by the conjunction. |
| Seqs.FilterIdempotent | src/pages/Products.tsx:415-448 | Re-filtering by the same predicate changes nothing. |
| Seqs.Somes | src/pages/SubCategories.tsx:153-155 | Dropping nulls keeps only present values and every present value. |
| Seqs.SomesKeepsOrder | src/pages/SubCategories.tsx:153-155 | The present values keep their order. |
| Seqs.SomesLength | src/pages/SubCategories.tsx:153-155 | Exactly the null entries are dropped. |
| Seqs.DropIndex | src/pages/Products.tsx:1007 | `filter((_, j) => j !== i)` deletes exactly position `i`, or nothing when `i` is out of range. |

## Left out

- Network calls to the database, the CDNs and the credentials endpoint are not modelled. Their replies are parameters: success flags, created keys, fetched rows and upload results.
- React state, effects and rendering are not modelled. Each handler is a function from the old state and the replies to the new state. Toasts and console output are omitted.
- Fetching is out of scope. Rows enter as already-fetched values, and the `Regions.tsx` connection test (lines 68-119) is not modelled.
- The Products save sequence (src/pages/Products.tsx:518-649) is not modelled: it deletes and re-inserts three child tables, and the product's scalar fields are not modelled either. Only its row builders are. The product delete (src/pages/Products.tsx:651-666) has the shape of `Persist.DeleteAlone`, confirmation prompt included.
- `parseFloat(price)` and the upload progress percentage are floating point and are left out.
- Pixel resampling, JPEG encoding and the `browser-image-compression` options are left out. Only the canvas size arithmetic is modelled. Whether the encoder yields a blob for a canvas with pixels is the `encodes` parameter. A null 2D context (`ctx?.drawImage` skipped) only changes pixels, so it is not modelled.
- FilterSearch.OptionsFor: ids are taken as the strings the component's props declare. The source compares `category_id === selectedCategory`, which for a raw numeric id differs from string equality when one side is a number and the other a string. The subcategories page's own category filter keeps raw `Id`s.
- HMAC-SHA1 is a parameter (`Signer`). A rejected `crypto.subtle` promise is its `Err` value. The clock is `nowMs`.
- `slugify` is a parameter function.
- Text.Lower: only ASCII letters are lowered. JavaScript's full Unicode case mapping is not modelled.
- Ids.JsNumber: `Number()` of a string is modelled for optional surrounding whitespace, the empty string (0), and an optional `-` followed by decimal digits. Other numeric syntaxes (`+`, fractions, exponents, hex, `Infinity`) are treated as NaN.
- Products.RegionIds: a mapping row whose nested region is null would make `rpm.region.id` throw. The model follows the declared interface, where the region is never null.
- Regions.Submit: a `name` or `code` column holding a non-string value would make `trim` throw. The model treats it as failing the guard.
- MediaLibrary.HandleUpload: the intermediate `compressing`/`uploading` flags and the progress callback are not modelled, only the state after the handler finishes. A malformed credentials JSON body is not modelled.
- Persist.Save: the contents of the mapping table after a run are not modelled, only the calls made. In particular, a failed unchecked delete followed by an insert is not shown to leave stale rows.
- Products.LoadForm: models the form fields only. The category that `handleOpen` stores in the page's `selectedCategory` is `Products.OpenProduct`, listed under Findings.
- Messages.HandleMarkAsRead: each handler is modelled for one reply against the list it rendered with. Overlapping replies are `Messages.OverlapAsWritten`, listed under Findings.
- The product dialog's own category select (src/pages/Products.tsx:738-744) writes the same `selectedCategory` as `Products.OpenProduct` and has the same effect on the grid. It is not modelled separately.
- Dashboard, routing, auth gating, the ImageKit SDK wrappers (`server.js`, `functions/src/index.ts`, `api/imagekit-auth.ts`) and client construction in `src/lib/supabase.ts` are outside this model.

## Findings

| source | as written | input that shows it | evidently intended | confidence | as-written member | corrected member |
|---|---|---|---|---|---|---|
| src/pages/SubCategories.tsx:184 | `selectedRegions.some(sr => sr.id === region.id)`. Selected ids are strings (`String(r.id)`, lines 369-373 and 377-381), and fetched region ids are numbers from the `regions.id` column (lines 39-43). | Select region 1 while a subcategory is mapped to region 1: `"1" === 1` is false, so the list becomes empty. | Compare ids by value, e.g. `String(sr.id) === String(region.id)`. Then a row is kept when it shares a region with the selection. | not executed | SubCategories.AsWrittenRegionFilterDropsAll | SubCategories.CorrectedRegionFilterMatchesIds |
| src/pages/Products.tsx:460-464 | `handleOpen` stores the opened product's category in `selectedCategory`, the state the grid filter reads (lines 431 and 448). Closing only calls `setOpen(false)` (lines 641, 718 and 1073). | With no filter set, open a category-7 product: a category-3 product disappears from the grid and stays hidden after the dialog closes. | Keep the dialog's category apart from the filter bar's, so opening a product leaves the grid as the bar set it. | not executed | Products.OpenHidesOtherCategories | Products.CorrectedOpenKeepsGrid |
| src/pages/Messages.tsx:66-85 | Both handlers call `setMessages` on the `messages` captured at render (`messages.map`, `messages.filter`), not on the current list. | Mark message 1 and delete message 2 before either reply arrives. If the delete's reply is last, 1 stays unread. If the mark's reply is last, 2 comes back. | Functional updates, `setMessages(prev => ...)`, so both changes survive in either order. | not executed | Messages.OverlapLosesAnUpdate | Messages.OverlapFunctionalKeepsBoth |

=== FILE: base64.dfy ===
/** The standard Base64 encoding of section 4 of RFC 4648 (alphabet `A-Z a-z 0-9 + /`,
    `=` padding), as computed by `btoa(String.fromCharCode(...bytes))`, and its decoder. */
module Base64 {
  import opened Wrappers
  import opened Bytes

  /** The character of the Base64 alphabet with value `i`. */
  function IndexChar(i: int): (c: char)
    requires 0 <= i < 64
    ensures IsAlphabetChar(c)
  {
    if i < 26 then ('A' as int + i) as char
    else if i < 52 then ('a' as int + (i - 26)) as char
    else if i < 62 then ('0' as int + (i - 52)) as char
    else if i == 62 then '+'
    else '/'
  }

  predicate IsAlphabetChar(c: char)
  {
    ('A' <= c <= 'Z') || ('a' <= c <= 'z') || ('0' <= c <= '9') || c == '+' || c == '/'
  }

  /** The value of an alphabet character. */
  function CharIndex(c: char): (i: int)
    requires IsAlphabetChar(c)
    ensures 0 <= i < 64
  {
    if 'A' <= c <= 'Z' then c as int - 'A' as int
    else if 'a' <= c <= 'z' then c as int - 'a' as int + 26
    else if '0' <= c <= '9' then c as int - '0' as int + 52
    else if c == '+' then 62
    else 63
  }

  /** The alphabet is a bijection between 0..63 and its 64 characters. */
  lemma CharIndexOfIndexChar(i: int)
    requires 0 <= i < 64
    ensures IsAlphabetChar(IndexChar(i)) && CharIndex(IndexChar(i)) == i
  {
  }

  /** Three octets as four sextets. */
  function EncodeTriple(a: byte, b: byte, c: byte): (r: string)
    ensures |r| == 4
    ensures forall i :: 0 <= i < 4 ==> IsAlphabetChar(r[i])
  {
    [IndexChar(a / 4), IndexChar((a % 4) * 16 + b / 16), IndexChar((b % 16) * 4 + c / 64), IndexChar(c % 64)]
  }

  /** Encoded output: groups of four characters, the last one padded with `=`. */
  function Encode(bytes: seq<byte>): (r: string)
    ensures |r| == 4 * ((|bytes| + 2) / 3)
    ensures forall i :: 0 <= i < |r| ==> IsAlphabetChar(r[i]) || r[i] == '='
    decreases |bytes|
  {
    if |bytes| == 0 then ""
    else if |bytes| == 1 then
      [IndexChar(bytes[0] / 4), IndexChar((bytes[0] % 4) * 16), '=', '=']
    else if |bytes| == 2 then
      [IndexChar(bytes[0] / 4), IndexChar((bytes[0] % 4) * 16 + bytes[1] / 16), IndexChar((bytes[1] % 16) * 4), '=']
    else
      assert (|bytes| + 2) / 3 == (|bytes| - 3 + 2) / 3 + 1;
      EncodeTriple(bytes[0], bytes[1], bytes[2]) + Encode(bytes[3..])
  }

  /** Four alphabet characters as three octets. */
  function DecodeQuad(q: string): (r: seq<byte>)
    requires |q| == 4 && forall i :: 0 <= i < 4 ==> IsAlphabetChar(q[i])
    ensures |r| == 3
  {
    var i0, i1, i2, i3 := CharIndex(q[0]), CharIndex(q[1]), CharIndex(q[2]), CharIndex(q[3]);
    [i0 * 4 + i1 / 16, (i1 % 16) * 16 + i2 / 4, (i2 % 4) * 64 + i3]
  }

  /** The last group, which may carry one or two `=` pads. */
  function DecodeLast(q: string): (r: Option<seq<byte>>)
    requires |q| == 4
    ensures r.Some? ==> 1 <= |r.value| <= 3
  {
    if IsAlphabetChar(q[0]) && IsAlphabetChar(q[1]) && IsAlphabetChar(q[2]) && IsAlphabetChar(q[3]) then
      Some(DecodeQuad(q))
    else if IsAlphabetChar(q[0]) && IsAlphabetChar(q[1]) && IsAlphabetChar(q[2]) && q[3] == '=' then
      var i0, i1, i2 := CharIndex(q[0]), CharIndex(q[1]), CharIndex(q[2]);
      Some([i0 * 4 + i1 / 16, (i1 % 16) * 16 + i2 / 4])
    else if IsAlphabetChar(q[0]) && IsAlphabetChar(q[1]) && q[2] == '=' && q[3] == '=' then
      var i0, i1 := CharIndex(q[0]), CharIndex(q[1]);
      Some([i0 * 4 + i1 / 16])
    else
      None
  }

  /** Decoding: `None` for a length that is not a multiple of four, a character outside the
      alphabet, or padding anywhere but at the end. */
  function Decode(s: string): (r: Option<seq<byte>>)
    decreases |s|
  {
    if |s| == 0 then Some([])
    else if |s| < 4 then None
    else if |s| == 4 then DecodeLast(s)
    else if !(IsAlphabetChar(s[0]) && IsAlphabetChar(s[1]) && IsAlphabetChar(s[2]) && IsAlphabetChar(s[3])) then None
    else match Decode(s[4..])
      case None => None
      case Some(rest) => Some(DecodeQuad(s[..4]) + rest)
  }

  /** The four sextets of three octets recombine into those octets. */
  lemma SextetsRecombine(a: int, b: int, c: int)
    requires 0 <= a < 256 && 0 <= b < 256 && 0 <= c < 256
    ensures var i0, i1, i2, i3 := a / 4, (a % 4) * 16 + b / 16, (b % 16) * 4 + c / 64, c % 64;
            && 0 <= i0 < 64 && 0 <= i1 < 64 && 0 <= i2 < 64 && 0 <= i3 < 64
            && i0 * 4 + i1 / 16 == a
            && (i1 % 16) * 16 + i2 / 4 == b
            && (i2 % 4) * 64 + i3 == c
  {
    var i1, i2 := (a % 4) * 16 + b / 16, (b % 16) * 4 + c / 64;
    assert i1 / 16 == a % 4 && i1 % 16 == b / 16;
    assert i2 / 4 == b % 16 && i2 % 4 == c / 64;
  }

  lemma TripleRoundTrip(a: byte, b: byte, c: byte)
    ensures forall i :: 0 <= i < 4 ==> IsAlphabetChar(EncodeTriple(a, b, c)[i])
    ensures DecodeQuad(EncodeTriple(a, b, c)) == [a, b, c]
  {
    var i0, i1, i2, i3 := a / 4, (a % 4) * 16 + b / 16, (b % 16) * 4 + c / 64, c % 64;
    SextetsRecombine(a, b, c);
    CharIndexOfIndexChar(i0);
    CharIndexOfIndexChar(i1);
    CharIndexOfIndexChar(i2);
    CharIndexOfIndexChar(i3);
    var q := EncodeTriple(a, b, c);
    assert CharIndex(q[0]) == i0 && CharIndex(q[1]) == i1 && CharIndex(q[2]) == i2 && CharIndex(q[3]) == i3;
  }

  lemma SingleRoundTrip(a: byte)
    ensures Decode(Encode([a])) == Some([a])
  {
    CharIndexOfIndexChar(a / 4);
    CharIndexOfIndexChar((a % 4) * 16);
  }

  lemma PairRoundTrip(a: byte, b: byte)
    ensures Decode(Encode([a, b])) == Some([a, b])
  {
    var s := Encode([a, b]);
    var i1 := (a % 4) * 16 + b / 16;
    var i2 := (b % 16) * 4;
    CharIndexOfIndexChar(a / 4);
    CharIndexOfIndexChar(i1);
    CharIndexOfIndexChar(i2);
    assert i1 / 16 == a % 4 && i1 % 16 == b / 16;
    assert i2 / 4 == b % 16;
    assert |s| == 4 && s[3] == '=' && IsAlphabetChar(s[2]);
    assert DecodeLast(s) == Some([(a / 4) * 4 + a % 4, (b / 16) * 16 + b % 16]);
  }

  /** A full group in front of a decodable tail decodes to the group's octets then the tail's. */
  lemma DecodeGroupThenTail(t: string, u: string, tail: seq<byte>)
    requires |t| == 4 && forall i :: 0 <= i < 4 ==> IsAlphabetChar(t[i])
    requires |u| > 0 && Decode(u) == Some(tail)
    ensures Decode(t + u) == Some(DecodeQuad(t) + tail)
  {
    var s := t + u;
    assert s[..4] == t && s[4..] == u;
    assert IsAlphabetChar(s[0]) && IsAlphabetChar(s[1]) && IsAlphabetChar(s[2]) && IsAlphabetChar(s[3]);
  }

  /** One full group followed by the encoding of the remaining octets decodes group by group. */
  lemma GroupRoundTrip(a: byte, b: byte, c: byte, rest: seq<byte>)
    requires Decode(Encode(rest)) == Some(rest)
    ensures Decode(Encode([a, b, c] + rest)) == Some([a, b, c] + rest)
  {
    var bytes := [a, b, c] + rest;
    var t := EncodeTriple(a, b, c);
    assert bytes[0] == a && bytes[1] == b && bytes[2] == c && bytes[3..] == rest;
    EncodeGroup(bytes);
    if |rest| == 0 {
      assert bytes == [a, b, c];
      assert Encode(bytes) == t;
      LastGroupRoundTrip(a, b, c);
    } else {
      TripleRoundTrip(a, b, c);
      DecodeGroupThenTail(t, Encode(rest), rest);
    }
  }

  /** Three or more octets encode as a full group followed by the rest. */
  lemma EncodeGroup(bytes: seq<byte>)
    requires |bytes| >= 3
    ensures Encode(bytes) == EncodeTriple(bytes[0], bytes[1], bytes[2]) + Encode(bytes[3..])
  {
  }

  /** A final full group decodes on its own. */
  lemma LastGroupRoundTrip(a: byte, b: byte, c: byte)
    ensures Decode(EncodeTriple(a, b, c)) == Some([a, b, c])
  {
    TripleRoundTrip(a, b, c);
    var t := EncodeTriple(a, b, c);
    assert IsAlphabetChar(t[0]) && IsAlphabetChar(t[1]) && IsAlphabetChar(t[2]) && IsAlphabetChar(t[3]);
  }

  /** A sequence of at least three octets is its first group followed by the rest. */
  lemma SplitFirstGroup(bytes: seq<byte>)
    requires |bytes| >= 3
    ensures bytes == [bytes[0], bytes[1], bytes[2]] + bytes[3..]
  {
  }

  /** Decoding an encoding gives back the octets encoded. */
  lemma {:induction false} DecodeEncode(bytes: seq<byte>)
    ensures Decode(Encode(bytes)) == Some(bytes)
    decreases |bytes|
  {
    if |bytes| == 0 {
      assert Encode(bytes) == "";
    } else if |bytes| == 1 {
      var a := bytes[0];
      assert bytes == [a];
      SingleRoundTrip(a);
    } else if |bytes| == 2 {
      var a, b := bytes[0], bytes[1];
      assert bytes == [a, b];
      PairRoundTrip(a, b);
    } else {
      DecodeEncode(bytes[3..]);
      SplitFirstGroup(bytes);
      GroupRoundTrip(bytes[0], bytes[1], bytes[2], bytes[3..]);
    }
  }
}

=== FILE: bytes.dfy ===
/** Octets, as produced by `TextEncoder` and `crypto.subtle.sign` and consumed by `btoa`. */
module Bytes {
  type byte = b: int | 0 <= b < 256
}

=== FILE: categories.dfy ===
/** The categories page: region reconstruction, the edit dialog, the save payload and
    mapping rows, and the row-only delete. */
module Categories {
  import opened Wrappers
  import opened Seqs
  import opened Ids
  import Joins
  import Persist

  /** A region nested in a fetched mapping row (`regions(id, name)`). */
  datatype RegionRef = RegionRef(id: Id, name: string)

  /** A fetched `categories` row; each mapping row contributes its nested region or `None`. */
  datatype Row = Row(
    id: Id,
    name: string,
    slug: string,
    description: Option<string>,
    imageUrl: Option<string>,
    iconUrl: Option<string>,
    orderIndex: int,
    mapping: Option<seq<Option<RegionRef>>>)

  datatype Category = Category(row: Row, regions: Option<seq<RegionRef>>)

  /** `{ ...row, regions: row.region_category_mapping?.map(m => m.regions).filter(r => r !== null) }` */
  function Reconstruct(row: Row): (c: Category)
    ensures c.row == row
    ensures c.regions.None? <==> row.mapping.None?
    ensures c.regions.Some? ==> |c.regions.value| <= |row.mapping.value|
    ensures c.regions.Some? ==> forall i :: 0 <= i < |c.regions.value| ==> Some(c.regions.value[i]) in row.mapping.value
    ensures c.regions.Some? ==> forall i :: 0 <= i < |row.mapping.value| && row.mapping.value[i].Some? ==> row.mapping.value[i].value in c.regions.value
    ensures c.regions.Some? ==> IsSubsequence(Wrap(c.regions.value), row.mapping.value)
  {
    Category(row, Joins.Nested(row.mapping))
  }

  datatype Form = Form(
    name: string,
    description: string,
    orderPosition: int,
    imageUrl: Option<string>,
    iconUrl: Option<string>,
    selectedRegions: seq<RegionRef>)

  const BlankForm := Form("", "", 0, None, None, [])

  datatype Dialog = Dialog(open: bool, editingId: Option<Id>, form: Form, imageTab: int, iconTab: int)

  /** "Edit" on a row (description `|| ''`, `order_position = order_index`, regions `|| []`),
      or "Add Category" without one. */
  function Open(d: Dialog, c: Option<Category>): (r: Dialog)
    ensures r.open && r.imageTab == d.imageTab && r.iconTab == d.iconTab
    ensures c.None? ==> r.editingId.None? && r.form == BlankForm
    ensures c.Some? ==> r.editingId == Some(c.value.row.id)
    ensures c.Some? ==> && r.form.name == c.value.row.name
                        && r.form.description == (if c.value.row.description.Some? then c.value.row.description.value else "")
                        && r.form.orderPosition == c.value.row.orderIndex
                        && r.form.imageUrl == c.value.row.imageUrl && r.form.iconUrl == c.value.row.iconUrl
                        && r.form.selectedRegions == (if c.value.regions.Some? then c.value.regions.value else [])
  {
    match c
    case None => d.(open := true, editingId := None, form := BlankForm)
    case Some(cat) =>
      d.(open := true, editingId := Some(cat.row.id),
         form := Form(cat.row.name, cat.row.description.GetOr(""), cat.row.orderIndex, cat.row.imageUrl, cat.row.iconUrl, cat.regions.GetOr([])))
  }

  /** Cancel, or the end of a successful save: blank form, first tabs. */
  function Close(d: Dialog): (r: Dialog)
    ensures !r.open && r.editingId.None? && r.form == BlankForm && r.imageTab == 0 && r.iconTab == 0
  {
    Dialog(false, None, BlankForm, 0, 0)
  }

  /** Opening for create gives the same form as closing does. */
  lemma CreateStartsBlank(d: Dialog)
    ensures Open(d, None).form == Close(d).form
    ensures Close(Open(d, None)) == Close(d)
  {
  }

  datatype Payload = Payload(name: string, slug: string, description: string, orderIndex: int, imageUrl: Option<string>, iconUrl: Option<string>)

  /** The object sent to update or insert. */
  function BuildPayload(form: Form, slugify: string -> string, imageUrl: string, iconUrl: string): (p: Payload)
    ensures p.name == form.name && p.slug == slugify(form.name) && p.description == form.description
    ensures p.orderIndex == form.orderPosition
    ensures p.imageUrl.Some? <==> imageUrl != ""
    ensures p.iconUrl.Some? <==> iconUrl != ""
    ensures p.imageUrl.Some? ==> p.imageUrl.value == imageUrl
    ensures p.iconUrl.Some? ==> p.iconUrl.value == iconUrl
  {
    Payload(form.name, slugify(form.name), form.description, form.orderPosition,
            Persist.OptionalKey(imageUrl), Persist.OptionalKey(iconUrl))
  }

  /** Editing a row and saving it without touching anything sends its stored order and
      description (absent as `''`), and keeps a stored URL exactly when it was non-empty. */
  lemma ResavePayload(d: Dialog, c: Category, slugify: string -> string)
    ensures var f := Open(d, Some(c)).form;
            var p := BuildPayload(f, slugify, Persist.ResolveUrl(f.imageUrl, Persist.NoFile).value, Persist.ResolveUrl(f.iconUrl, Persist.NoFile).value);
            && p.orderIndex == c.row.orderIndex
            && p.description == c.row.description.GetOr("")
            && (p.imageUrl.Some? <==> c.row.imageUrl.Some? && c.row.imageUrl.value != "")
            && (p.imageUrl.Some? ==> p.imageUrl == c.row.imageUrl)
  {
  }

  /** `region_category_mapping` rows: the category id and the selected region's id. */
  type MappingRow = Joins.Link<Id, Id>

  function RegionIdsOf(regions: seq<RegionRef>): (r: seq<Id>)
    ensures |r| == |regions|
    ensures forall i :: 0 <= i < |r| ==> r[i] == regions[i].id
  {
    seq(|regions|, i requires 0 <= i < |regions| => regions[i].id)
  }

  function MappingRows(owner: Id, selected: seq<RegionRef>): (r: seq<MappingRow>)
    ensures |r| == |selected|
    ensures forall i :: 0 <= i < |r| ==> r[i].owner == owner && r[i].target == selected[i].id
  {
    Joins.LinkRows(owner, RegionIdsOf(selected))
  }

  /** Opening a category and saving it unchanged writes one mapping row per reconstructed
      region, in order: the mappings whose region still exists. */
  lemma ResaveMappingRows(d: Dialog, row: Row)
    requires row.mapping.Some?
    ensures var rows := MappingRows(row.id, Open(d, Some(Reconstruct(row))).form.selectedRegions);
            var live := Somes(row.mapping.value);
            |rows| == |live| && forall i :: 0 <= i < |rows| ==> rows[i] == Joins.Link(row.id, live[i].id)
  {
  }

  /** `if (editingId)`: an empty id takes the create path. */
  function EditingKey(d: Dialog): Option<Id>
  {
    if d.editingId.Some? && Truthy(d.editingId.value) then d.editingId else None
  }

  /** Submit: uploads first, then update or create and rewrite the mappings; the mapping
      delete reply is not checked. */
  function Submit(d: Dialog, slugify: string -> string, image: Persist.Upload, icon: Persist.Upload, replies: Persist.Replies<Id>)
    : (r: Persist.Run<Id, Payload, MappingRow>)
    ensures image.UploadFailed? || icon.UploadFailed? ==> r == Persist.Run([], Persist.Failed)
    ensures !image.UploadFailed? && !icon.UploadFailed? ==>
              var p := BuildPayload(d.form, slugify, Persist.ResolveUrl(d.form.imageUrl, image).value, Persist.ResolveUrl(d.form.iconUrl, icon).value);
              r == Persist.Save(EditingKey(d), p, owner => MappingRows(owner, d.form.selectedRegions), false, replies)
  {
    var imageUrl := Persist.ResolveUrl(d.form.imageUrl, image);
    var iconUrl := Persist.ResolveUrl(d.form.iconUrl, icon);
    if imageUrl.Err? || iconUrl.Err? then Persist.Run([], Persist.Failed)
    else
      var p := BuildPayload(d.form, slugify, imageUrl.value, iconUrl.value);
      Persist.Save(EditingKey(d), p, owner => MappingRows(owner, d.form.selectedRegions), false, replies)
  }

  /** On update, the old mappings are deleted before any insert, an empty selection inserts
      nothing, and a successful save inserts one row per selected region. */
  lemma UpdateReplacesMappings(d: Dialog, slugify: string -> string, image: Persist.Upload, icon: Persist.Upload, replies: Persist.Replies<Id>)
    requires EditingKey(d).Some?
    ensures var r := Submit(d, slugify, image, icon, replies);
            && (forall i, j :: 0 <= i < |r.calls| && 0 <= j < |r.calls| && r.calls[i].DeleteMappingsOf? && r.calls[j].InsertMappings? ==> i < j)
            && (|d.form.selectedRegions| == 0 ==> forall i :: 0 <= i < |r.calls| ==> !r.calls[i].InsertMappings?)
            && (r.outcome == Persist.Saved && |d.form.selectedRegions| > 0 ==>
                  Persist.InsertMappings(MappingRows(EditingKey(d).value, d.form.selectedRegions)) in r.calls)
  {
    if !image.UploadFailed? && !icon.UploadFailed? {
      var p := BuildPayload(d.form, slugify, Persist.ResolveUrl(d.form.imageUrl, image).value, Persist.ResolveUrl(d.form.iconUrl, icon).value);
      var rowsFor := owner => MappingRows(owner, d.form.selectedRegions);
      Persist.DeleteBeforeInsert(EditingKey(d), p, rowsFor, false, replies);
      if Submit(d, slugify, image, icon, replies).outcome == Persist.Saved {
        Persist.SavedWritesSelection(EditingKey(d), p, rowsFor, false, replies);
      }
    }
  }
}

=== FILE: cloudinary.dfy ===
/** Client-side image upload helper: the bounding-box arithmetic of `compressImage` and the
    step order and error messages of `uploadImage`. Pixel resampling, JPEG encoding and the
    HTTP transport are parameters of the model. */
module Cloudinary {
  import opened Wrappers

  const MaxWidth := 800
  const MaxHeight := 800

  datatype Size = Size(width: nat, height: nat)

  /** `Math.round(a / b)` for a non-negative numerator: the nearest integer, halves rounded up. */
  function RoundDiv(a: nat, b: nat): (r: nat)
    requires b > 0
    ensures 2 * b * r <= 2 * a + b < 2 * b * r + 2 * b
  {
    (2 * a + b) / (2 * b)
  }

  /** A product bound can be divided by the positive factor. */
  lemma MulBound(w: nat, x: int, y: int)
    requires w > 0 && w * x < w * y
    ensures x < y
  {
    if x >= y {
      MulMonotone(w, y, x);
    }
  }

  lemma MulMonotone(w: nat, x: int, y: int)
    requires x <= y
    ensures w * x <= w * y
  {
    assert w * y == w * x + w * (y - x);
  }

  lemma MulBoundLe(w: nat, x: int, y: int)
    requires w > 0 && w * x <= w * y
    ensures x <= y
  {
    if x > y {
      assert w * (y + 1) == w * y + w;
      MulMonotone(w, y + 1, x);
    }
  }

  /** The landscape branch never exceeds the box and never grows the short side. */
  lemma LandscapeBounds(w: nat, h: nat)
    requires w > h && w > MaxWidth
    ensures RoundDiv(h * MaxWidth, w) <= MaxHeight
    ensures RoundDiv(h * MaxWidth, w) <= h
  {
    var r := RoundDiv(h * MaxWidth, w);
    var twiceRounded := w * (2 * r);
    assert twiceRounded <= 1600 * h + w by {
      assert 2 * w * r == w * (2 * r);
    }
    MulBound(w, 2 * r, 1601);
    MulMonotone(h, 801, w);
    assert w * (2 * h + 2) == 2 * (h * w) + 2 * w;
    MulBound(w, 2 * r, 2 * h + 2);
  }

  /** The portrait (and square) branch, symmetrically. */
  lemma PortraitBounds(w: nat, h: nat)
    requires h >= w && h > MaxHeight
    ensures RoundDiv(w * MaxHeight, h) <= MaxWidth
    ensures RoundDiv(w * MaxHeight, h) <= w
  {
    var r := RoundDiv(w * MaxHeight, h);
    var twiceRounded := h * (2 * r);
    assert twiceRounded <= 1600 * w + h by {
      assert 2 * h * r == h * (2 * r);
    }
    MulBoundLe(h, 2 * r, 1601);
    MulMonotone(w, 801, h);
    assert h * (2 * w + 2) == 2 * (w * h) + 2 * h;
    MulBound(h, 2 * r, 2 * w + 2);
  }

  /** The canvas size `compressImage` draws an image of `w` x `h` pixels at. */
  function FitWithin(w: nat, h: nat): (r: Size)
    ensures r.width <= MaxWidth && r.height <= MaxHeight
    ensures r.width <= w && r.height <= h
    ensures w <= MaxWidth && h <= MaxHeight ==> r == Size(w, h)
    ensures w > h && w > MaxWidth ==>
              r.width == MaxWidth && 2 * w * r.height <= 2 * MaxWidth * h + w < 2 * w * r.height + 2 * w
    ensures h >= w && h > MaxHeight ==>
              r.height == MaxHeight && 2 * h * r.width <= 2 * MaxHeight * w + h < 2 * h * r.width + 2 * h
  {
    if w > h then
      if w > MaxWidth then
        LandscapeBounds(w, h);
        Size(MaxWidth, RoundDiv(h * MaxWidth, w))
      else Size(w, h)
    else
      if h > MaxHeight then
        PortraitBounds(w, h);
        Size(RoundDiv(w * MaxHeight, h), MaxHeight)
      else Size(w, h)
  }

  /** A very thin image is drawn on a canvas with no rows at all. */
  lemma ThinImageLosesItsRows()
    ensures FitWithin(2000, 1) == Size(800, 0)
  {
  }

  /** What happens to the file inside `compressImage`: the `FileReader` fails, the decoded
      image never loads (no `onerror` handler is installed), or it decodes to a size. */
  datatype Picture = ReadFails | NeverLoads | Decoded(width: nat, height: nat)

  /** The parsed JSON of the upload endpoint's reply; an absent field is `""` or `None`. */
  datatype ReplyJson = ReplyJson(message: string, secureUrl: Option<string>)

  /** How the POST ends: `fetch` itself rejects (network or CORS failure), or a response
      arrives whose body `response.json()` parses (`None`: it throws on a non-JSON body). */
  datatype Reply = FetchRejected(error: string) | Answered(ok: bool, json: Option<ReplyJson>)

  datatype Step = Compress | Post(size: Size)

  /** Why the returned promise rejected: the reader's error event, an `Error` with a message,
      the rejection of `fetch`, or the parse error of a non-JSON body. */
  datatype Reason = ReaderError | Message(text: string) | Transport(error: string) | BodyNotJson

  /** How the promise returned by `uploadImage` settles; `Pending` means it never does.
      A reply without `secure_url` resolves to `undefined`, here `None`. */
  datatype Settlement = Pending | Resolved(url: Option<string>) | Rejected(reason: Reason)

  datatype UploadRun = UploadRun(steps: seq<Step>, outcome: Settlement)

  /** A canvas with no pixels: `canvas.toBlob` then calls back with `null` (section 4.12.5
      of the HTML Living Standard), whatever the encoder could do. */
  predicate EmptyCanvas(s: Size)
  {
    s.width == 0 || s.height == 0
  }

  /** `uploadImage(file)`: compress, then POST the blob; `encodes` says whether the JPEG
      encoder produces a blob for a canvas that has pixels, `reply` is how the POST ends. */
  function UploadImage(picture: Picture, encodes: bool, reply: Reply): (r: UploadRun)
    ensures |r.steps| >= 1 && r.steps[0] == Compress
    ensures |r.steps| == 2 <==> picture.Decoded? && encodes && !EmptyCanvas(FitWithin(picture.width, picture.height))
    ensures |r.steps| <= 2
    ensures |r.steps| == 2 ==> r.steps[1] == Post(FitWithin(picture.width, picture.height))
    ensures picture.Decoded? && (!encodes || EmptyCanvas(FitWithin(picture.width, picture.height))) ==>
              r.outcome == Rejected(Message("Failed to compress image"))
    ensures picture.NeverLoads? ==> r.outcome == Pending
    ensures picture.ReadFails? ==> r.outcome == Rejected(ReaderError)
    ensures |r.steps| == 2 && reply.FetchRejected? ==> r.outcome == Rejected(Transport(reply.error))
    ensures |r.steps| == 2 && reply.Answered? && reply.json.None? ==> r.outcome == Rejected(BodyNotJson)
    ensures |r.steps| == 2 && reply.Answered? && reply.ok && reply.json.Some? ==> r.outcome == Resolved(reply.json.value.secureUrl)
    ensures |r.steps| == 2 && reply.Answered? && !reply.ok && reply.json.Some? ==>
              var m := reply.json.value.message;
              r.outcome == Rejected(Message(if m != "" then m else "Failed to upload image"))
  {
    match picture
    case ReadFails => UploadRun([Compress], Rejected(ReaderError))
    case NeverLoads => UploadRun([Compress], Pending)
    case Decoded(w, h) =>
      var size := FitWithin(w, h);
      if !encodes || EmptyCanvas(size) then UploadRun([Compress], Rejected(Message("Failed to compress image")))
      else
        var steps := [Compress, Post(size)];
        match reply
        case FetchRejected(e) => UploadRun(steps, Rejected(Transport(e)))
        case Answered(ok, json) =>
          if json.None? then UploadRun(steps, Rejected(BodyNotJson))
          else if !ok then
            UploadRun(steps, Rejected(Message(if json.value.message != "" then json.value.message else "Failed to upload image")))
          else UploadRun(steps, Resolved(json.value.secureUrl))
  }

  /** The thin image above is never posted: its empty canvas yields no blob. */
  lemma ThinImageFailsToCompress(reply: Reply)
    ensures UploadImage(Decoded(2000, 1), true, reply) == UploadRun([Compress], Rejected(Message("Failed to compress image")))
  {
    ThinImageLosesItsRows();
  }

  /** Fitting is idempotent: an image already drawn at its fitted size is drawn unchanged. */
  lemma FitWithinIdempotent(w: nat, h: nat)
    ensures var r := FitWithin(w, h); FitWithin(r.width, r.height) == r
  {
  }

  /** `uploadImage` resolves exactly when the image decoded to a canvas with pixels, the
      canvas produced a blob and the endpoint answered ok with JSON; it never resolves without
      having posted. */
  lemma UploadResolvesOnlyAfterPost(picture: Picture, encodes: bool, reply: Reply)
    ensures UploadImage(picture, encodes, reply).outcome.Resolved? <==>
              && picture.Decoded? && encodes && !EmptyCanvas(FitWithin(picture.width, picture.height))
              && reply.Answered? && reply.ok && reply.json.Some?
    ensures UploadImage(picture, encodes, reply).outcome.Resolved? ==>
              Post(FitWithin(picture.width, picture.height)) in UploadImage(picture, encodes, reply).steps
  {
  }
}

=== FILE: decimal.dfy ===
/** Decimal rendering and parsing of integers: JavaScript's `String(n)` / template
    interpolation of an integer-valued number, and `Number(s)` on a canonical decimal. */
module Decimal {
  import opened Wrappers

  predicate IsDigit(c: char)
  {
    '0' <= c <= '9'
  }

  predicate AllDigits(s: string)
  {
    forall i :: 0 <= i < |s| ==> IsDigit(s[i])
  }

  function DigitChar(d: nat): (c: char)
    requires d < 10
    ensures IsDigit(c)
  {
    ('0' as int + d) as char
  }

  function DigitValue(c: char): (d: nat)
    requires IsDigit(c)
    ensures d < 10
  {
    c as int - '0' as int
  }

  /** The shortest decimal numeral of `n`. */
  function NatToDecimal(n: nat): (r: string)
    ensures |r| >= 1 && AllDigits(r)
    ensures r[0] == '0' ==> n == 0
  {
    if n < 10 then [DigitChar(n)] else NatToDecimal(n / 10) + [DigitChar(n % 10)]
  }

  /** The value of a numeral, most significant digit first. */
  function DigitsValue(s: string): nat
    requires AllDigits(s)
  {
    if |s| == 0 then 0 else DigitsValue(s[..|s| - 1]) * 10 + DigitValue(s[|s| - 1])
  }

  /** Reading back a rendered numeral yields the number rendered. */
  lemma {:induction false} DigitsValueOfDecimal(n: nat)
    ensures DigitsValue(NatToDecimal(n)) == n
  {
    if n >= 10 {
      var s := NatToDecimal(n);
      assert s[..|s| - 1] == NatToDecimal(n / 10);
      DigitsValueOfDecimal(n / 10);
    }
  }

  /** `String(i)` for an integer-valued JavaScript number. */
  function IntToDecimal(i: int): (r: string)
    ensures |r| >= 1
    ensures i >= 0 <==> IsDigit(r[0])
    ensures forall k :: 0 < k < |r| ==> IsDigit(r[k])
  {
    if i < 0 then "-" + NatToDecimal(-i) else NatToDecimal(i)
  }

  /** An optional `-` followed by one or more digits; anything else is not a number. */
  function ParseInteger(s: string): Option<int>
  {
    if |s| > 1 && s[0] == '-' && AllDigits(s[1..]) then Some(-(DigitsValue(s[1..]) as int))
    else if |s| > 0 && AllDigits(s) then Some(DigitsValue(s))
    else None
  }

  /** Parsing inverts rendering, for every integer. */
  lemma IntToDecimalRoundTrip(i: int)
    ensures ParseInteger(IntToDecimal(i)) == Some(i)
  {
    var s := IntToDecimal(i);
    if i < 0 {
      var digits := NatToDecimal(-i);
      assert s == "-" + digits;
      assert s[1..] == digits;
      DigitsValueOfDecimal(-i);
      assert ParseInteger(s) == Some(-(DigitsValue(digits) as int));
    } else {
      assert s == NatToDecimal(i);
      assert s[0] != '-';
      DigitsValueOfDecimal(i);
      assert ParseInteger(s) == Some(DigitsValue(s));
    }
  }

  /** Distinct integers render to distinct strings. */
  lemma IntToDecimalInjective(a: int, b: int)
    requires IntToDecimal(a) == IntToDecimal(b)
    ensures a == b
  {
    IntToDecimalRoundTrip(a);
    IntToDecimalRoundTrip(b);
  }
}

=== FILE: filter_search.dfy ===
/** The shared filter bar: dependent subcategory options, the region multi-select, the
    clear-all button and its visibility. Its props declare every id a string, and this module
    takes them at that type; the category select itself hands back the chosen row's raw
    `category.id`, which the subcategories page therefore keeps as an `Id`. */
module FilterSearch {
  import opened Seqs

  datatype RegionOption = RegionOption(id: string, name: string)
  datatype SubCategoryOption = SubCategoryOption(id: string, name: string, categoryId: string)

  /** What the bar shows as selected. */
  datatype Selection = Selection(searchQuery: string, selectedRegions: seq<RegionOption>, selectedCategory: string, selectedSubCategory: string)

  const Cleared := Selection("", [], "", "")

  /** The subcategory choices: all of them while no category is selected, else exactly
      those of the selected category, in order. */
  function OptionsFor(subs: seq<SubCategoryOption>, selectedCategory: string): (r: seq<SubCategoryOption>)
    ensures selectedCategory == "" ==> r == subs
    ensures selectedCategory != "" ==> forall i :: 0 <= i < |r| ==> r[i] in subs && r[i].categoryId == selectedCategory
    ensures selectedCategory != "" ==> forall i :: 0 <= i < |subs| && subs[i].categoryId == selectedCategory ==> subs[i] in r
  {
    if selectedCategory != "" then Filter((sc: SubCategoryOption) => sc.categoryId == selectedCategory, subs) else subs
  }

  /** The options keep the order of the full list. */
  lemma OptionsKeepOrder(subs: seq<SubCategoryOption>, selectedCategory: string)
    ensures IsSubsequence(OptionsFor(subs, selectedCategory), subs)
  {
    if selectedCategory != "" {
      FilterIsSubsequence((sc: SubCategoryOption) => sc.categoryId == selectedCategory, subs);
    } else {
      IsSubsequenceReflexive(subs);
    }
  }

  /** The subcategory selector is disabled while no category is selected. */
  predicate SubCategoryDisabled(s: Selection)
  {
    s.selectedCategory == ""
  }

  /** While it is disabled, every subcategory is offered. */
  lemma DisabledOffersAll(s: Selection, subs: seq<SubCategoryOption>)
    requires SubCategoryDisabled(s)
    ensures OptionsFor(subs, s.selectedCategory) == subs
  {
  }

  /** The region select's change handler: the master-list regions whose ids were chosen. */
  function RegionSelection(regions: seq<RegionOption>, chosen: seq<string>): (r: seq<RegionOption>)
    ensures |r| <= |regions|
    ensures forall i :: 0 <= i < |r| ==> r[i] in regions && r[i].id in chosen
    ensures forall i :: 0 <= i < |regions| && regions[i].id in chosen ==> regions[i] in r
  {
    Filter((r: RegionOption) => r.id in chosen, regions)
  }

  function IdsOf(regions: seq<RegionOption>): (r: seq<string>)
    ensures |r| == |regions|
    ensures forall i :: 0 <= i < |r| ==> r[i] == regions[i].id
  {
    seq(|regions|, i requires 0 <= i < |regions| => regions[i].id)
  }

  predicate DistinctIds(regions: seq<RegionOption>)
  {
    forall i, j :: 0 <= i < |regions| && 0 <= j < |regions| && regions[i].id == regions[j].id ==> i == j
  }

  /** The selection follows the master list's order, whatever order the ids were chosen in. */
  lemma RegionSelectionOrder(regions: seq<RegionOption>, chosen: seq<string>)
    ensures IsSubsequence(RegionSelection(regions, chosen), regions)
  {
    FilterIsSubsequence((r: RegionOption) => r.id in chosen, regions);
  }

  /** The select shows `selectedRegions.map(r => r.id)`; re-submitting that value returns the
      same selection, for any selection taken from a master list with distinct ids. */
  lemma RegionSelectionRoundTrip(regions: seq<RegionOption>, keep: RegionOption -> bool)
    requires DistinctIds(regions)
    ensures RegionSelection(regions, IdsOf(Filter(keep, regions))) == Filter(keep, regions)
  {
    var sel := Filter(keep, regions);
    var ids := IdsOf(sel);
    forall i | 0 <= i < |regions|
      ensures (regions[i].id in ids) == keep(regions[i])
    {
      if keep(regions[i]) {
        var k :| 0 <= k < |sel| && sel[k] == regions[i];
        assert ids[k] == regions[i].id;
      }
      if regions[i].id in ids {
        var k :| 0 <= k < |ids| && ids[k] == regions[i].id;
        var j :| 0 <= j < |regions| && regions[j] == sel[k];
        assert regions[j].id == regions[i].id;
      }
    }
    FilterCongruent((r: RegionOption) => r.id in ids, keep, regions);
  }

  /** The callbacks the bar invokes on its host page. */
  datatype Event =
    | SearchChanged(query: string)
    | RegionsChanged(regions: seq<RegionOption>)
    | CategoryChanged(categoryId: string)
    | SubCategoryChanged(subCategoryId: string)

  /** The clear button fires, in this order: empty search, no regions, no category, no
      subcategory. */
  const ClearAllEvents: seq<Event> := [SearchChanged(""), RegionsChanged([]), CategoryChanged(""), SubCategoryChanged("")]

  /** A host that stores each value as given. */
  function Apply(s: Selection, e: Event): (r: Selection)
  {
    match e
    case SearchChanged(q) => s.(searchQuery := q)
    case RegionsChanged(rs) => s.(selectedRegions := rs)
    case CategoryChanged(c) => s.(selectedCategory := c)
    case SubCategoryChanged(sc) => s.(selectedSubCategory := sc)
  }

  function ApplyAll(s: Selection, es: seq<Event>): Selection
    decreases |es|
  {
    if |es| == 0 then s else ApplyAll(Apply(s, es[0]), es[1..])
  }

  /** The clear button is shown exactly when some filter is set. */
  predicate ShowClear(s: Selection)
  {
    s.searchQuery != "" || |s.selectedRegions| > 0 || s.selectedCategory != "" || s.selectedSubCategory != ""
  }

  /** The button is shown exactly when the selection differs from the cleared one. */
  lemma ShowClearIffNotCleared(s: Selection)
    ensures ShowClear(s) <==> s != Cleared
  {
    if !ShowClear(s) {
      assert s.selectedRegions == [];
    }
  }

  /** Clearing reaches the cleared selection from any selection, and hides the button. */
  lemma ClearAllClears(s: Selection)
    ensures ApplyAll(s, ClearAllEvents) == Cleared
    ensures !ShowClear(ApplyAll(s, ClearAllEvents))
  {
    var es := ClearAllEvents;
    assert es[1..] == [RegionsChanged([]), CategoryChanged(""), SubCategoryChanged("")];
    assert es[1..][1..] == [CategoryChanged(""), SubCategoryChanged("")];
    assert es[1..][1..][1..] == [SubCategoryChanged("")];
  }
}

=== FILE: ids.dfy ===
/** Row identifiers as JavaScript sees them. The remote store returns numeric ids, while
    several pages convert them to strings; the comparisons in the pages differ in whether
    they convert first, so ids are kept as a small sum type with JavaScript's semantics. */
module Ids {
  import opened Wrappers
  import opened Decimal
  import Text

  /** A JavaScript number (always an integer here) or string holding an id. */
  datatype Id = Num(n: int) | Str(s: string)

  /** JavaScript's strict equality `a === b`: same type and same value. */
  predicate StrictEquals(a: Id, b: Id)
  {
    match (a, b)
    case (Num(x), Num(y)) => x == y
    case (Str(x), Str(y)) => x == y
    case _ => false
  }

  /** `===` on ids coincides with equality of the modelled values, and a string
      never strictly equals a number, whatever their spelling. */
  lemma StrictEqualsIsEquality(a: Id, b: Id)
    ensures StrictEquals(a, b) <==> a == b
    ensures a.Str? && b.Num? ==> !StrictEquals(a, b)
  {
  }

  /** `String(v)`. */
  function JsString(v: Id): string
  {
    match v
    case Num(n) => IntToDecimal(n)
    case Str(s) => s
  }

  /** `String(v)` where `v` may be missing: `String(undefined)` is `"undefined"`. */
  function JsStringOf(v: Option<Id>): string
  {
    match v
    case Some(x) => JsString(x)
    case None => "undefined"
  }

  /** `Number(v)`; `None` stands for `NaN`. Strings are trimmed, the empty string is 0, and an
      optional `-` followed by digits is read in decimal. */
  function JsNumber(v: Id): Option<int>
  {
    match v
    case Num(n) => Some(n)
    case Str(s) =>
      var t := Text.Trim(s);
      if |t| == 0 then Some(0) else ParseInteger(t)
  }

  /** JavaScript truthiness of an id: `0` and `''` are falsy. */
  predicate Truthy(v: Id)
  {
    match v
    case Num(n) => n != 0
    case Str(s) => s != ""
  }

  /** `Number(String(n))` gives back `n`. */
  lemma NumberOfString(n: int)
    ensures JsNumber(Str(JsString(Num(n)))) == Some(n)
  {
    var s := IntToDecimal(n);
    assert !Text.IsJsWhitespace(s[0]);
    assert !Text.IsJsWhitespace(s[|s| - 1]);
    Text.TrimUnpadded(s);
    IntToDecimalRoundTrip(n);
  }

  /** `String` is injective on numbers. */
  lemma StringOfNumInjective(a: int, b: int)
    ensures JsString(Num(a)) == JsString(Num(b)) <==> a == b
  {
    if JsString(Num(a)) == JsString(Num(b)) {
      IntToDecimalInjective(a, b);
    }
  }
}

=== FILE: imagekit_auth.dfy ===
/** The serverless handler that mints upload credentials for the image CDN: it answers
    the CORS preflight, checks that both keys are configured, and returns
    `{token, expire, signature}` where `signature` is the Base64 of an HMAC-SHA1 tag
    over the decimal text of `expire`. The clock and the HMAC primitive are parameters. */
module ImageKitAuth {
  import opened Wrappers
  import opened Bytes
  import Decimal
  import Base64
  import Utf8

  type Header = (string, string)

  /** Headers attached to every response. */
  const CorsHeaders: seq<Header> := [
    ("Access-Control-Allow-Origin", "*"),
    ("Access-Control-Allow-Headers", "authorization, x-client-info, apikey, content-type")
  ]

  /** Headers of the JSON responses (success and error). */
  const JsonHeaders: seq<Header> := CorsHeaders + [("Content-Type", "application/json")]

  const CredentialsError := "ImageKit credentials not configured"

  /** Lifetime of a token, in seconds. */
  const TokenLifetime := 3600

  /** The two environment variables the handler reads. */
  datatype Env = Env(privateKey: Option<string>, publicKey: Option<string>)

  /** Response bodies: the preflight text, the credentials object, or `{error}`. */
  datatype Body =
    | PlainText(text: string)
    | AuthParams(token: string, expire: int, signature: string)
    | ErrorBody(error: string)

  datatype Response = Response(status: int, headers: seq<Header>, body: Body)

  /** HMAC-SHA1 of RFC 2104 as provided by the host's `crypto.subtle`: key octets and message
      octets to the tag, or the message of the error it throws. */
  type Signer = (seq<byte>, seq<byte>) -> Result<seq<byte>, string>

  /** An environment value JavaScript treats as present: defined and non-empty. */
  predicate Configured(v: Option<string>)
  {
    v.Some? && v.value != ""
  }

  /** `Math.floor(nowMs / 1000) + 3600`. */
  function Expire(nowMs: int): (e: int)
    ensures (e - TokenLifetime) * 1000 <= nowMs < (e - TokenLifetime) * 1000 + 1000
  {
    nowMs / 1000 + TokenLifetime
  }

  /** The string that is signed: the template literal `${expire}`. */
  function SignedMessage(expire: int): string
  {
    Decimal.IntToDecimal(expire)
  }

  /** The request handler. */
  function Handle(httpMethod: string, env: Env, nowMs: int, hmacSha1: Signer): (r: Response)
    ensures httpMethod == "OPTIONS" ==> r == Response(200, CorsHeaders, PlainText("ok"))
    ensures httpMethod != "OPTIONS" && !(Configured(env.privateKey) && Configured(env.publicKey)) ==>
              r == Response(500, JsonHeaders, ErrorBody(CredentialsError))
    ensures httpMethod != "OPTIONS" && Configured(env.privateKey) && Configured(env.publicKey) ==>
              var tag := hmacSha1(Utf8.Encode(env.privateKey.value), Utf8.Encode(SignedMessage(Expire(nowMs))));
              && (tag.Ok? ==> r == Response(200, JsonHeaders, AuthParams(env.publicKey.value, Expire(nowMs), Base64.Encode(tag.value))))
              && (tag.Err? ==> r == Response(500, JsonHeaders, ErrorBody(tag.error)))
    ensures |r.headers| >= 2 && r.headers[..2] == CorsHeaders
    ensures r.status == 200 || (r.status == 500 && r.body.ErrorBody? && r.headers == JsonHeaders)
    ensures r.body.AuthParams? ==>
              && r.status == 200 && r.headers == JsonHeaders
              && r.body.token == env.publicKey.value
              && r.body.expire == Expire(nowMs)
  {
    if httpMethod == "OPTIONS" then
      Response(200, CorsHeaders, PlainText("ok"))
    else if !Configured(env.privateKey) || !Configured(env.publicKey) then
      Response(500, JsonHeaders, ErrorBody(CredentialsError))
    else
      var expire := Expire(nowMs);
      var key := Utf8.Encode(env.privateKey.value);
      var message := Utf8.Encode(SignedMessage(expire));
      match hmacSha1(key, message)
      case Err(e) => Response(500, JsonHeaders, ErrorBody(e))
      case Ok(tag) =>
        Response(200, JsonHeaders, AuthParams(env.publicKey.value, expire, Base64.Encode(tag)))
  }

  /** The preflight answer does not depend on configuration, clock or signer: it is decided
      before any key is looked up. */
  lemma PreflightFirst(env1: Env, env2: Env, now1: int, now2: int, s1: Signer, s2: Signer)
    ensures Handle("OPTIONS", env1, now1, s1) == Handle("OPTIONS", env2, now2, s2)
  {
  }

  /** A successful response's signature Base64-decodes to the HMAC-SHA1 tag of the decimal
      text of its `expire`, keyed by the private key. */
  lemma SignatureIsEncodedTag(httpMethod: string, env: Env, nowMs: int, hmacSha1: Signer)
    requires Handle(httpMethod, env, nowMs, hmacSha1).body.AuthParams?
    ensures (var r := Handle(httpMethod, env, nowMs, hmacSha1);
             var tag := hmacSha1(Utf8.Encode(env.privateKey.value), Utf8.Encode(SignedMessage(r.body.expire)));
             && tag.Ok?
             && Base64.Decode(r.body.signature) == Some(tag.value)
             && (|tag.value| == 20 ==> |r.body.signature| == 28))
  {
    var r := Handle(httpMethod, env, nowMs, hmacSha1);
    var expire := Expire(nowMs);
    var tag := hmacSha1(Utf8.Encode(env.privateKey.value), Utf8.Encode(SignedMessage(expire)));
    assert httpMethod != "OPTIONS" && Configured(env.privateKey) && Configured(env.publicKey);
    assert tag.Ok?;
    assert r.body == AuthParams(env.publicKey.value, expire, Base64.Encode(tag.value));
    Base64.DecodeEncode(tag.value);
    assert |tag.value| == 20 ==> |r.body.signature| == 4 * ((20 + 2) / 3);
  }

  /** The signed octets are the ASCII codes of the decimal numeral, which reads back as `expire`. */
  lemma SignedMessageReadsBack(expire: int)
    ensures Decimal.ParseInteger(SignedMessage(expire)) == Some(expire)
    ensures |Utf8.Encode(SignedMessage(expire))| == |SignedMessage(expire)|
  {
    Decimal.IntToDecimalRoundTrip(expire);
    var m := SignedMessage(expire);
    assert Utf8.IsAscii(m);
    Utf8.EncodeAscii(m);
  }

  /** Calls made in different seconds sign different messages. */
  lemma DistinctSecondsDistinctMessages(nowA: int, nowB: int)
    requires nowA / 1000 != nowB / 1000
    ensures Expire(nowA) != Expire(nowB)
    ensures SignedMessage(Expire(nowA)) != SignedMessage(Expire(nowB))
  {
    if SignedMessage(Expire(nowA)) == SignedMessage(Expire(nowB)) {
      Decimal.IntToDecimalInjective(Expire(nowA), Expire(nowB));
    }
  }
}

=== FILE: joins.dfy ===
/** Join tables in both directions: reading the targets of a fetched owner back out of its
    mapping rows (dropping rows whose target no longer exists), and building the mapping rows
    written for an owner from a selection. */
module Joins {
  import opened Wrappers
  import opened Seqs

  /** `owner.mapping?.map(m => m.target).filter(t => t !== null)`: `None` stands for the
      undefined result of an absent mapping list. */
  function Nested<T(==)>(mappings: Option<seq<Option<T>>>): (r: Option<seq<T>>)
    ensures mappings.None? <==> r.None?
    ensures r.Some? ==> |r.value| + CountNone(mappings.value) == |mappings.value|
    ensures r.Some? ==> forall i :: 0 <= i < |r.value| ==> Some(r.value[i]) in mappings.value
    ensures r.Some? ==> forall i :: 0 <= i < |mappings.value| && mappings.value[i].Some? ==> mappings.value[i].value in r.value
    ensures r.Some? ==> IsSubsequence(Wrap(r.value), mappings.value)
  {
    match mappings
    case None => None
    case Some(ms) =>
      SomesLength(ms);
      SomesKeepsOrder(ms);
      Some(Somes(ms))
  }

  /** Mapping rows that all point at an existing target read back as exactly those targets. */
  lemma NestedOfLiveRows<T>(targets: seq<T>)
    ensures Nested(Some(Wrap(targets))) == Some(targets)
  {
    SomesWrap(targets);
  }

  /** One join row: the owner being saved and one selected target. */
  datatype Link<O, T> = Link(owner: O, target: T)

  /** `selection.map(t => ({ owner_id: owner, target_id: t }))`. */
  function LinkRows<O, T>(owner: O, targets: seq<T>): (r: seq<Link<O, T>>)
    ensures |r| == |targets|
    ensures forall i :: 0 <= i < |r| ==> r[i].owner == owner && r[i].target == targets[i]
  {
    seq(|targets|, i requires 0 <= i < |targets| => Link(owner, targets[i]))
  }

  /** The targets column of a list of join rows. */
  function Targets<O, T>(rows: seq<Link<O, T>>): (r: seq<T>)
    ensures |r| == |rows|
    ensures forall i :: 0 <= i < |r| ==> r[i] == rows[i].target
  {
    seq(|rows|, i requires 0 <= i < |rows| => rows[i].target)
  }

  /** Writing the rows for a selection and reading their targets back gives the selection,
      and fetching them again through the join (no target deleted meanwhile) does too. */
  lemma LinkRowsRoundTrip<O, T>(owner: O, targets: seq<T>)
    ensures Targets(LinkRows(owner, targets)) == targets
    ensures Nested(Some(Wrap(Targets(LinkRows(owner, targets))))) == Some(targets)
  {
    NestedOfLiveRows(targets);
  }
}

=== FILE: media.dfy ===
/** The media library page as a small state machine: the upload handler (compress, fetch
    upload credentials, upload, append) and the delete handler. The image service and the
    compression library are replies passed in. */
module MediaLibrary {
  import opened Wrappers
  import opened Seqs

  datatype MediaItem = MediaItem(url: string, fileId: string, fileName: string)

  datatype UploadProgress = UploadProgress(compressing: bool, uploading: bool, progress: int)

  const Idle := UploadProgress(false, false, 0)

  datatype State = State(items: seq<MediaItem>, progress: UploadProgress)

  /** The credentials endpoint's answer. */
  datatype AuthReply = AuthReply(ok: bool, token: string, signature: string, expire: int)

  /** What the image service returns for an upload. */
  datatype Uploaded = Uploaded(url: string, fileId: string, name: string)

  /** An outside call the handler makes, in order. */
  datatype Step =
    | Compress(fileName: string)
    | FetchAuth
    | Upload(fileName: string, token: string, signature: string, expire: int)

  datatype Run = Run(steps: seq<Step>, state: State)

  /** `handleUpload`: `file` is the chosen file's name, `None` when none was chosen;
      `compressed` says whether compression succeeded, `upload` is the service's reply
      (`None` when it rejected). */
  function HandleUpload(s: State, file: Option<string>, compressed: bool, auth: AuthReply, upload: Option<Uploaded>): (r: Run)
    ensures file.None? ==> r == Run([], s)
    ensures file.Some? ==> r.state.progress == Idle
    ensures file.Some? ==> |r.steps| >= 1 && r.steps[0] == Compress(file.value)
    ensures file.Some? && compressed ==> |r.steps| >= 2 && r.steps[1] == FetchAuth
    ensures !auth.ok ==> forall i :: 0 <= i < |r.steps| ==> !r.steps[i].Upload?
    ensures forall i :: 0 <= i < |r.steps| && r.steps[i].Upload? ==>
              i == 2 && r.steps[i] == Upload(file.value, auth.token, auth.signature, auth.expire)
    ensures r.state.items == s.items || (upload.Some? && r.state.items == s.items + [MediaItem(upload.value.url, upload.value.fileId, upload.value.name)])
  {
    match file
    case None => Run([], s)
    case Some(name) =>
      if !compressed then Run([Compress(name)], State(s.items, Idle))
      else if !auth.ok then Run([Compress(name), FetchAuth], State(s.items, Idle))
      else
        var steps := [Compress(name), FetchAuth, Upload(name, auth.token, auth.signature, auth.expire)];
        match upload
        case None => Run(steps, State(s.items, Idle))
        case Some(u) => Run(steps, State(s.items + [MediaItem(u.url, u.fileId, u.name)], Idle))
  }

  /** The list grows by exactly one item, at the end, exactly when every step succeeded;
      otherwise it is unchanged. */
  lemma UploadAppendsOnSuccess(s: State, file: Option<string>, compressed: bool, auth: AuthReply, upload: Option<Uploaded>)
    ensures var r := HandleUpload(s, file, compressed, auth, upload);
            (file.Some? && compressed && auth.ok && upload.Some?) <==> |r.state.items| == |s.items| + 1
    ensures var r := HandleUpload(s, file, compressed, auth, upload);
            |r.state.items| == |s.items| + 1 ==>
              r.state.items[..|s.items|] == s.items && r.state.items[|s.items|].fileId == upload.value.fileId
  {
  }

  /** `handleDelete`: items with that file id go, once the service confirmed the delete. */
  function HandleDelete(items: seq<MediaItem>, fileId: string, deleted: bool): (r: seq<MediaItem>)
    ensures !deleted ==> r == items
    ensures deleted ==> forall i :: 0 <= i < |r| ==> r[i].fileId != fileId && r[i] in items
    ensures deleted ==> forall i :: 0 <= i < |items| && items[i].fileId != fileId ==> items[i] in r
  {
    if deleted then Filter((m: MediaItem) => m.fileId != fileId, items) else items
  }

  /** Deleting a freshly uploaded file (with a file id new to the list) restores the list. */
  lemma DeleteUndoesUpload(s: State, file: Option<string>, compressed: bool, auth: AuthReply, u: Uploaded)
    requires forall i :: 0 <= i < |s.items| ==> s.items[i].fileId != u.fileId
    ensures HandleDelete(HandleUpload(s, file, compressed, auth, Some(u)).state.items, u.fileId, true) == s.items
  {
    var p := (m: MediaItem) => m.fileId != u.fileId;
    FilterKeepsAll(p, s.items);
    var r := HandleUpload(s, file, compressed, auth, Some(u));
    if |r.state.items| == |s.items| + 1 {
      FilterAppend(p, s.items, [MediaItem(u.url, u.fileId, u.name)]);
    }
  }
}

=== FILE: messages.dfy ===
/** The contact-messages page: the local list updates made after the database accepted a
    mark-as-read or a delete. */
module Messages {
  import opened Wrappers
  import opened Seqs

  /** A `contactus_response` row. */
  datatype Message = Message(
    id: string,
    createdAt: string,
    name: string,
    email: string,
    message: string,
    phone: Option<string>,
    isOkReceiveCommunication: bool,
    regionCode: Option<string>,
    markAsRead: bool)

  /** `m.id === id ? { ...m, mark_as_read: true } : m` */
  function MarkOne(m: Message, id: string): Message
  {
    if m.id == id then m.(markAsRead := true) else m
  }

  /** `messages.map(m => ...)` with the mark above. */
  function MarkRead(msgs: seq<Message>, id: string): (r: seq<Message>)
    ensures |r| == |msgs|
    ensures forall i :: 0 <= i < |r| ==> r[i].(markAsRead := msgs[i].markAsRead) == msgs[i]
    ensures forall i :: 0 <= i < |r| ==> (r[i].markAsRead <==> msgs[i].markAsRead || msgs[i].id == id)
  {
    seq(|msgs|, i requires 0 <= i < |msgs| => MarkOne(msgs[i], id))
  }

  /** `messages.filter(m => m.id !== id)` */
  function Remove(msgs: seq<Message>, id: string): (r: seq<Message>)
    ensures forall i :: 0 <= i < |r| ==> r[i].id != id && r[i] in msgs
    ensures forall i :: 0 <= i < |msgs| && msgs[i].id != id ==> msgs[i] in r
  {
    Filter((m: Message) => m.id != id, msgs)
  }

  /** The mark-as-read handler: the list changes only when the update reported no error. */
  function HandleMarkAsRead(msgs: seq<Message>, id: string, updateOk: bool): (r: seq<Message>)
    ensures !updateOk ==> r == msgs
    ensures updateOk ==> r == MarkRead(msgs, id)
  {
    if updateOk then MarkRead(msgs, id) else msgs
  }

  /** The delete handler: the list changes only when the delete reported no error. */
  function HandleDelete(msgs: seq<Message>, id: string, deleteOk: bool): (r: seq<Message>)
    ensures !deleteOk ==> r == msgs
    ensures deleteOk ==> r == Remove(msgs, id)
  {
    if deleteOk then Remove(msgs, id) else msgs
  }

  /** Marking twice is marking once. */
  lemma MarkReadIdempotent(msgs: seq<Message>, id: string)
    ensures MarkRead(MarkRead(msgs, id), id) == MarkRead(msgs, id)
  {
  }

  /** Marking an id no message has changes nothing. */
  lemma MarkReadAbsent(msgs: seq<Message>, id: string)
    requires forall i :: 0 <= i < |msgs| ==> msgs[i].id != id
    ensures MarkRead(msgs, id) == msgs
  {
  }

  /** Delete keeps the other messages in their order. */
  lemma RemoveKeepsOrder(msgs: seq<Message>, id: string)
    ensures IsSubsequence(Remove(msgs, id), msgs)
  {
    FilterIsSubsequence((m: Message) => m.id != id, msgs);
  }

  /** Deleting a message makes an earlier mark-as-read of it invisible. */
  lemma {:induction false} RemoveAfterMark(msgs: seq<Message>, id: string)
    ensures Remove(MarkRead(msgs, id), id) == Remove(msgs, id)
    decreases |msgs|
  {
    if |msgs| > 0 {
      RemoveAfterMark(msgs[1..], id);
      assert MarkRead(msgs, id)[1..] == MarkRead(msgs[1..], id);
    }
  }

  lemma MarkReadCons(m: Message, rest: seq<Message>, id: string)
    ensures MarkRead([m] + rest, id) == [MarkOne(m, id)] + MarkRead(rest, id)
  {
    var a := MarkRead([m] + rest, id);
    var b := [MarkOne(m, id)] + MarkRead(rest, id);
    assert |a| == |b|;
    forall i | 0 <= i < |a|
      ensures a[i] == b[i]
    {
      if i > 0 {
        assert ([m] + rest)[i] == rest[i - 1];
      }
    }
  }

  /** Marking one message read and deleting another commute: the flag plays no part in
      which messages a delete keeps. */
  lemma {:induction false} MarkAndRemoveCommute(msgs: seq<Message>, id: string, other: string)
    ensures MarkRead(Remove(msgs, other), id) == Remove(MarkRead(msgs, id), other)
    decreases |msgs|
  {
    if |msgs| > 0 {
      var m := msgs[0];
      var rest := msgs[1..];
      assert msgs == [m] + rest;
      MarkReadCons(m, rest, id);
      MarkAndRemoveCommute(rest, id, other);
      var marked := [MarkOne(m, id)] + MarkRead(rest, id);
      assert marked[1..] == MarkRead(rest, id);
      if m.id == other {
        assert Remove(msgs, other) == Remove(rest, other);
        assert Remove(marked, other) == Remove(MarkRead(rest, id), other);
      } else {
        assert Remove(msgs, other) == [m] + Remove(rest, other);
        assert Remove(marked, other) == [MarkOne(m, id)] + Remove(MarkRead(rest, id), other);
        MarkReadCons(m, Remove(rest, other), id);
      }
    }
  }

  // ----- a mark-as-read and a delete in flight together -----

  /** Both handlers as written, started from the same render and so holding the same
      `messages`: each sets the list it computed from that snapshot when its reply arrives,
      so the list computed by the later reply is the one that stays. */
  function OverlapAsWritten(rendered: seq<Message>, markId: string, deleteId: string, markRepliesFirst: bool): (r: seq<Message>)
    ensures markRepliesFirst ==> r == HandleDelete(rendered, deleteId, true)
    ensures !markRepliesFirst ==> r == HandleMarkAsRead(rendered, markId, true)
  {
    var afterMark := HandleMarkAsRead(rendered, markId, true);
    var afterDelete := HandleDelete(rendered, deleteId, true);
    if markRepliesFirst then afterDelete else afterMark
  }

  /** Marking message 1 while deleting message 2 loses one of the two changes whichever reply
      comes last: the mark when the delete's reply is last, the delete when the mark's is. */
  lemma OverlapLosesAnUpdate(a: Message, b: Message)
    requires a.id == "1" && b.id == "2" && !a.markAsRead
    ensures OverlapAsWritten([a, b], "1", "2", true) == [a]
    ensures !OverlapAsWritten([a, b], "1", "2", true)[0].markAsRead
    ensures OverlapAsWritten([a, b], "1", "2", false) == [a.(markAsRead := true), b]
  {
    var k := (m: Message) => m.id != "2";
    assert [a, b][1..] == [b] && [b][1..] == [];
    assert Filter(k, [b]) == [];
    assert Filter(k, [a, b]) == [a];
  }

  /** Both handlers with functional updates, `setMessages(prev => ...)`: each reply applies
      its change to the list as it stands when the reply arrives. */
  function OverlapFunctional(rendered: seq<Message>, markId: string, deleteId: string, markRepliesFirst: bool): (r: seq<Message>)
    ensures markRepliesFirst ==> r == Remove(MarkRead(rendered, markId), deleteId)
    ensures !markRepliesFirst ==> r == MarkRead(Remove(rendered, deleteId), markId)
  {
    if markRepliesFirst then HandleDelete(HandleMarkAsRead(rendered, markId, true), deleteId, true)
    else HandleMarkAsRead(HandleDelete(rendered, deleteId, true), markId, true)
  }

  /** With functional updates the replies may arrive in either order: the list ends the same,
      without the deleted message and with the marked one read. */
  lemma OverlapFunctionalKeepsBoth(rendered: seq<Message>, markId: string, deleteId: string, markRepliesFirst: bool)
    ensures OverlapFunctional(rendered, markId, deleteId, markRepliesFirst) == OverlapFunctional(rendered, markId, deleteId, !markRepliesFirst)
    ensures var r := OverlapFunctional(rendered, markId, deleteId, markRepliesFirst);
            forall i :: 0 <= i < |r| ==> r[i].id != deleteId && (r[i].id == markId ==> r[i].markAsRead)
  {
    MarkAndRemoveCommute(rendered, markId, deleteId);
    var marked := MarkRead(rendered, markId);
    var r := Remove(marked, deleteId);
    forall i | 0 <= i < |r|
      ensures r[i].id != deleteId && (r[i].id == markId ==> r[i].markAsRead)
    {
      var j :| 0 <= j < |marked| && marked[j] == r[i];
    }
  }
}

=== FILE: persist.dfy ===
/** The database call sequences of the category, subcategory and region save and delete
    handlers. The replies are parameters; a run is the list of calls made, in order, and
    whether the handler ended in its success or its error branch. */
module Persist {
  import opened Wrappers

  /** A call on the entity table (payload `P`, key `K`) or its join table (rows `M`). */
  datatype Call<K, P, M> =
    | UpdateEntity(key: K, payload: P)
    | InsertEntity(payload: P)
    | DeleteMappingsOf(key: K)
    | InsertMappings(rows: seq<M>)
    | DeleteEntity(key: K)

  /** The answer to `insert([payload]).select().single()`. */
  datatype Created<K> = CreateFailed | CreatedNothing | Created(key: K)

  /** What each call would answer; a run only consults the replies of the calls it makes. */
  datatype Replies<K> = Replies(updateOk: bool, created: Created<K>, deleteMappingsOk: bool, insertMappingsOk: bool, deleteOk: bool)

  /** How a handler ends: its success branch, its error branch, or (for a delete) the user
      dismissing the `window.confirm` prompt, which ends it before any call. */
  datatype Outcome = Saved | Failed | Cancelled

  datatype Run<K, P, M> = Run(calls: seq<Call<K, P, M>>, outcome: Outcome)

  /** Image and icon URLs: the stored URL (or `''`), replaced by a fresh upload when a file
      was chosen; a failed upload aborts the save before any database call. */
  datatype Upload = NoFile | Uploaded(url: string) | UploadFailed(reason: string)

  function ResolveUrl(stored: Option<string>, upload: Upload): (r: Result<string, string>)
    ensures upload.NoFile? ==> r == Ok(stored.GetOr(""))
    ensures upload.Uploaded? ==> r == Ok(upload.url)
    ensures upload.UploadFailed? <==> r.Err?
  {
    match upload
    case NoFile => Ok(stored.GetOr(""))
    case Uploaded(url) => Ok(url)
    case UploadFailed(reason) => Err(reason)
  }

  /** `...(url && { key: url })`: the key is present exactly for a non-empty URL. */
  function OptionalKey(url: string): (r: Option<string>)
    ensures r.Some? <==> url != ""
    ensures r.Some? ==> r.value == url
  {
    if url != "" then Some(url) else None
  }

  /** Replace the owner's mappings: delete them all, then insert the new rows if there are
      any. `checkDeleteError` says whether a failing delete aborts (it does on the regions
      page only). */
  function ReplaceMappings<K, P, M>(key: K, rows: seq<M>, checkDeleteError: bool, replies: Replies<K>): (r: Run<K, P, M>)
    ensures |r.calls| >= 1 && r.calls[0] == DeleteMappingsOf(key)
    ensures forall i :: 1 <= i < |r.calls| ==> r.calls[i] == InsertMappings(rows)
    ensures InsertMappings(rows) in r.calls <==> |rows| > 0 && (replies.deleteMappingsOk || !checkDeleteError)
    ensures r.outcome == Saved <==>
              (replies.deleteMappingsOk || !checkDeleteError) && (|rows| == 0 || replies.insertMappingsOk)
  {
    if checkDeleteError && !replies.deleteMappingsOk then Run([DeleteMappingsOf(key)], Failed)
    else if |rows| == 0 then Run([DeleteMappingsOf(key)], Saved)
    else Run([DeleteMappingsOf(key), InsertMappings(rows)], if replies.insertMappingsOk then Saved else Failed)
  }

  /** The database part of a submit: update or create the entity, then write its mappings. */
  function Save<K, P, M>(editing: Option<K>, payload: P, rowsFor: K -> seq<M>, checkDeleteError: bool, replies: Replies<K>): (r: Run<K, P, M>)
    ensures |r.calls| >= 1
    ensures editing.Some? ==> r.calls[0] == UpdateEntity(editing.value, payload)
    ensures editing.None? ==> r.calls[0] == InsertEntity(payload)
    ensures editing.Some? && !replies.updateOk ==> r == Run([UpdateEntity(editing.value, payload)], Failed)
    ensures editing.None? && replies.created.CreateFailed? ==> r == Run([InsertEntity(payload)], Failed)
    ensures editing.None? ==> forall i :: 0 <= i < |r.calls| ==> !r.calls[i].DeleteMappingsOf?
    ensures forall i :: 0 <= i < |r.calls| ==> !r.calls[i].DeleteEntity?
    ensures forall i :: 1 <= i < |r.calls| ==> !r.calls[i].UpdateEntity? && !r.calls[i].InsertEntity?
  {
    match editing
    case Some(key) =>
      if !replies.updateOk then Run([UpdateEntity(key, payload)], Failed)
      else
        var m := ReplaceMappings(key, rowsFor(key), checkDeleteError, replies);
        Run([UpdateEntity(key, payload)] + m.calls, m.outcome)
    case None =>
      match replies.created
      case CreateFailed => Run([InsertEntity(payload)], Failed)
      case CreatedNothing => Run([InsertEntity(payload)], Saved)
      case Created(key) =>
        if |rowsFor(key)| == 0 then Run([InsertEntity(payload)], Saved)
        else Run([InsertEntity(payload), InsertMappings(rowsFor(key))], if replies.insertMappingsOk then Saved else Failed)
  }

  /** The key whose mappings a successful save leaves in place. */
  function SavedKey<K>(editing: Option<K>, replies: Replies<K>): Option<K>
  {
    if editing.Some? then editing else if replies.created.Created? then Some(replies.created.key) else None
  }

  /** On every path, mappings are removed before new ones are inserted. */
  lemma DeleteBeforeInsert<K, P, M>(editing: Option<K>, payload: P, rowsFor: K -> seq<M>, checkDeleteError: bool, replies: Replies<K>)
    ensures var r := Save(editing, payload, rowsFor, checkDeleteError, replies);
            forall i, j :: 0 <= i < |r.calls| && 0 <= j < |r.calls| && r.calls[i].DeleteMappingsOf? && r.calls[j].InsertMappings? ==> i < j
  {
  }

  /** A successful save inserts exactly the rows for the saved key (none for an empty
      selection), once; an update also removed the old ones first. */
  lemma SavedWritesSelection<K, P, M>(editing: Option<K>, payload: P, rowsFor: K -> seq<M>, checkDeleteError: bool, replies: Replies<K>)
    requires Save(editing, payload, rowsFor, checkDeleteError, replies).outcome == Saved
    requires SavedKey(editing, replies).Some?
    ensures var r := Save(editing, payload, rowsFor, checkDeleteError, replies);
            var key := SavedKey(editing, replies).value;
            && (|rowsFor(key)| > 0 <==> InsertMappings(rowsFor(key)) in r.calls)
            && (forall i :: 0 <= i < |r.calls| && r.calls[i].InsertMappings? ==> r.calls[i].rows == rowsFor(key))
            && (editing.Some? ==> DeleteMappingsOf(key) in r.calls)
  {
    var r := Save(editing, payload, rowsFor, checkDeleteError, replies);
    if editing.Some? {
      var m: Run<K, P, M> := ReplaceMappings(editing.value, rowsFor(editing.value), checkDeleteError, replies);
      assert r.calls == [UpdateEntity(editing.value, payload)] + m.calls;
      assert r.calls[1] == DeleteMappingsOf(editing.value);
    }
  }

  /** Where the mapping delete is unchecked, its failure changes nothing in the run: the
      handler goes on to insert and reports success, old rows possibly still in place. */
  lemma UncheckedDeleteIgnored<K, P, M>(editing: Option<K>, payload: P, rowsFor: K -> seq<M>, replies: Replies<K>)
    ensures Save(editing, payload, rowsFor, false, replies)
            == Save(editing, payload, rowsFor, false, replies.(deleteMappingsOk := true))
  {
  }

  /** Where it is checked, a failing mapping delete stops the run before any insert. */
  lemma CheckedDeleteStops<K, P, M>(key: K, payload: P, rowsFor: K -> seq<M>, replies: Replies<K>)
    requires replies.updateOk && !replies.deleteMappingsOk
    ensures Save(Some(key), payload, rowsFor, true, replies) == Run([UpdateEntity(key, payload), DeleteMappingsOf(key)], Failed)
  {
  }

  /** Delete on the subcategories page, once `confirmed` by the user: mappings first (reply
      not checked), then the row; the outcome is the row delete's. */
  function DeleteWithMappings<K, P, M>(key: K, confirmed: bool, replies: Replies<K>): (r: Run<K, P, M>)
    ensures !confirmed ==> r == Run([], Cancelled)
    ensures confirmed ==> |r.calls| == 2 && r.calls[0] == DeleteMappingsOf(key) && r.calls[1] == DeleteEntity(key)
    ensures r.outcome == Saved <==> confirmed && replies.deleteOk
    ensures r.outcome == Failed <==> confirmed && !replies.deleteOk
  {
    if !confirmed then Run([], Cancelled)
    else Run([DeleteMappingsOf(key), DeleteEntity(key)], if replies.deleteOk then Saved else Failed)
  }

  /** Delete on the category and product pages, once `confirmed`: only the row, the mapping
      rows stay. */
  function DeleteAlone<K, P, M>(key: K, confirmed: bool, replies: Replies<K>): (r: Run<K, P, M>)
    ensures !confirmed ==> r == Run([], Cancelled)
    ensures confirmed ==> r.calls == [DeleteEntity(key)]
    ensures r.outcome == Saved <==> confirmed && replies.deleteOk
    ensures r.outcome == Failed <==> confirmed && !replies.deleteOk
  {
    if !confirmed then Run([], Cancelled)
    else Run([DeleteEntity(key)], if replies.deleteOk then Saved else Failed)
  }

  /** A delete touches the database exactly when the user confirmed it, and no delete ever
      writes a mapping row. */
  lemma DeleteNeedsConfirmation<K, P, M>(key: K, confirmed: bool, replies: Replies<K>)
    ensures var r: Run<K, P, M> := DeleteWithMappings(key, confirmed, replies);
            (|r.calls| > 0 <==> confirmed) && forall i :: 0 <= i < |r.calls| ==> !r.calls[i].InsertMappings?
    ensures var r: Run<K, P, M> := DeleteAlone(key, confirmed, replies);
            (|r.calls| > 0 <==> confirmed) && forall i :: 0 <= i < |r.calls| ==> !r.calls[i].InsertMappings?
  {
  }

  /** The mapping delete comes before the row delete, and only the row delete decides. */
  lemma MappingsGoFirst<K, P, M>(key: K, confirmed: bool, replies: Replies<K>, mappingsOk: bool)
    ensures var r: Run<K, P, M> := DeleteWithMappings(key, confirmed, replies);
            confirmed ==> exists i, j :: 0 <= i < j < |r.calls| && r.calls[i] == DeleteMappingsOf(key) && r.calls[j] == DeleteEntity(key)
    ensures DeleteWithMappings<K, P, M>(key, confirmed, replies) == DeleteWithMappings(key, confirmed, replies.(deleteMappingsOk := mappingsOk))
  {
    var r: Run<K, P, M> := DeleteWithMappings(key, confirmed, replies);
    if confirmed {
      assert r.calls[0] == DeleteMappingsOf(key) && r.calls[1] == DeleteEntity(key);
    }
  }
}

=== FILE: products.dfy ===
/** The products page: the four-criteria list filter, the cascading category/subcategory
    selection, the colour and care-instruction list editors of the product form, and the
    join and child rows written when a product is saved. */
module Products {
  import opened Wrappers
  import opened Seqs
  import opened Ids
  import Text
  import FilterSearch
  import Decimal

  datatype CategoryRef = CategoryRef(id: Id, name: string)
  datatype SubCategoryRef = SubCategoryRef(id: Id, name: string, category: Option<CategoryRef>)
  datatype Region = Region(id: int, name: string)
  datatype RegionMapping = RegionMapping(region: Region)
  datatype ProductColor = ProductColor(id: int, name: string, colorCode: string, imageUrl: Option<string>, isDefault: Option<bool>)
  datatype CareInstruction = CareInstruction(id: int, instruction: string, icon: string)

  /** A product row as fetched with its nested subcategory, region mappings, colours and care
      instructions (the remaining text attributes play no part here). */
  datatype Product = Product(
    id: int,
    name: string,
    description: Option<string>,
    reference: Option<string>,
    subcategory: Option<SubCategoryRef>,
    regionMappings: Option<seq<RegionMapping>>,
    colors: Option<seq<ProductColor>>,
    careInstructions: Option<seq<CareInstruction>>)

  /** The filter state: search text, selected region ids (already through `Number`, `None`
      for NaN), category and subcategory ids. */
  datatype Criteria = Criteria(searchQuery: string, selectedRegions: seq<Option<int>>, selectedCategory: string, selectedSubCategory: string)

  const NoCriteria := Criteria("", [], "", "")

  // ----- the filter effect, stage by stage -----

  /** The lower-cased query occurs in the lower-cased name, description or reference;
      a missing description or reference never matches. */
  predicate TextMatch(p: Product, query: string)
  {
    || Text.Includes(Text.Lower(p.name), query)
    || (p.description.Some? && Text.Includes(Text.Lower(p.description.value), query))
    || (p.reference.Some? && Text.Includes(Text.Lower(p.reference.value), query))
  }

  /** `String(product.subcategory?.category?.id)`. */
  function CategoryIdText(p: Product): string
  {
    if p.subcategory.Some? && p.subcategory.value.category.Some? then JsString(p.subcategory.value.category.value.id)
    else "undefined"
  }

  /** `String(product.subcategory?.id)`. */
  function SubCategoryIdText(p: Product): string
  {
    if p.subcategory.Some? then JsString(p.subcategory.value.id) else "undefined"
  }

  /** `product.region_product_mapping?.map(rpm => rpm.region.id) || []`. */
  function RegionIds(p: Product): (r: seq<int>)
    ensures p.regionMappings.None? ==> r == []
    ensures p.regionMappings.Some? ==> |r| == |p.regionMappings.value|
    ensures p.regionMappings.Some? ==> forall i :: 0 <= i < |r| ==> r[i] == p.regionMappings.value[i].region.id
  {
    match p.regionMappings
    case None => []
    case Some(ms) => seq(|ms|, i requires 0 <= i < |ms| => ms[i].region.id)
  }

  /** `selectedRegions.some(region => productRegionIds.includes(Number(region.id)))`. */
  predicate RegionMatch(selected: seq<Option<int>>, p: Product)
  {
    exists j :: 0 <= j < |selected| && selected[j].Some? && selected[j].value in RegionIds(p)
  }

  function SearchStage(ps: seq<Product>, query: string): seq<Product>
  {
    if query != "" then Filter(p => TextMatch(p, Text.Lower(query)), ps) else ps
  }

  function CategoryStage(ps: seq<Product>, category: string, subCategory: string): seq<Product>
  {
    Filter(p => (category == "" || CategoryIdText(p) == category) && (subCategory == "" || SubCategoryIdText(p) == subCategory), ps)
  }

  function RegionStage(ps: seq<Product>, selected: seq<Option<int>>): seq<Product>
  {
    if |selected| > 0 then Filter(p => RegionMatch(selected, p), ps) else ps
  }

  /** The list shown in the grid: search, then category and subcategory, then regions. */
  function FilterProducts(ps: seq<Product>, c: Criteria): seq<Product>
  {
    RegionStage(CategoryStage(SearchStage(ps, c.searchQuery), c.selectedCategory, c.selectedSubCategory), c.selectedRegions)
  }

  // ----- what the filter means -----

  /** The search criterion: empty, or the lower-cased query occurs in one of the text fields. */
  predicate SearchOk(c: Criteria, p: Product)
  {
    c.searchQuery == "" || TextMatch(p, Text.Lower(c.searchQuery))
  }

  /** The category and subcategory criteria: each empty, or equal to the product's id text. */
  predicate CategoryOk(c: Criteria, p: Product)
  {
    (c.selectedCategory == "" || CategoryIdText(p) == c.selectedCategory)
    && (c.selectedSubCategory == "" || SubCategoryIdText(p) == c.selectedSubCategory)
  }

  /** The region criterion: nothing selected, or one selected region is mapped to the product. */
  predicate RegionOk(c: Criteria, p: Product)
  {
    |c.selectedRegions| == 0 || RegionMatch(c.selectedRegions, p)
  }

  /** The four criteria, each unconstrained when empty, joined by AND. */
  predicate Keeps(c: Criteria, p: Product)
  {
    SearchOk(c, p) && CategoryOk(c, p) && RegionOk(c, p)
  }

  lemma SearchStageAsFilter(ps: seq<Product>, c: Criteria)
    ensures SearchStage(ps, c.searchQuery) == Filter(p => SearchOk(c, p), ps)
  {
    if c.searchQuery == "" {
      FilterKeepsAll(p => SearchOk(c, p), ps);
    } else {
      FilterCongruent(p => TextMatch(p, Text.Lower(c.searchQuery)), p => SearchOk(c, p), ps);
    }
  }

  lemma CategoryStageAsFilter(ps: seq<Product>, c: Criteria)
    ensures CategoryStage(ps, c.selectedCategory, c.selectedSubCategory) == Filter(p => CategoryOk(c, p), ps)
  {
    FilterCongruent(p => (c.selectedCategory == "" || CategoryIdText(p) == c.selectedCategory) && (c.selectedSubCategory == "" || SubCategoryIdText(p) == c.selectedSubCategory),
                    p => CategoryOk(c, p), ps);
  }

  lemma RegionStageAsFilter(ps: seq<Product>, c: Criteria)
    ensures RegionStage(ps, c.selectedRegions) == Filter(p => RegionOk(c, p), ps)
  {
    if |c.selectedRegions| == 0 {
      FilterKeepsAll(p => RegionOk(c, p), ps);
    } else {
      FilterCongruent(p => RegionMatch(c.selectedRegions, p), p => RegionOk(c, p), ps);
    }
  }

  /** The staged pipeline is a single filter by the conjunction of the four criteria. */
  lemma FilterProductsIsConjunction(ps: seq<Product>, c: Criteria)
    ensures FilterProducts(ps, c) == Filter(p => Keeps(c, p), ps)
  {
    var s := p => SearchOk(c, p);
    var k := p => CategoryOk(c, p);
    var g := p => RegionOk(c, p);
    var sk := x => s(x) && k(x);
    var a := SearchStage(ps, c.searchQuery);
    SearchStageAsFilter(ps, c);
    assert a == Filter(s, ps);
    var b := CategoryStage(a, c.selectedCategory, c.selectedSubCategory);
    CategoryStageAsFilter(a, c);
    assert b == Filter(k, Filter(s, ps));
    FilterFilter(s, k, sk, ps);
    RegionStageAsFilter(b, c);
    assert FilterProducts(ps, c) == Filter(g, Filter(sk, ps));
    FilterFilter(sk, g, p => Keeps(c, p), ps);
  }

  /** The shown list is a subsequence of `products`, in the original order, holding exactly the
      products every criterion accepts. */
  lemma FilterProductsSelects(ps: seq<Product>, c: Criteria)
    ensures IsSubsequence(FilterProducts(ps, c), ps)
    ensures forall i :: 0 <= i < |FilterProducts(ps, c)| ==> Keeps(c, FilterProducts(ps, c)[i])
    ensures forall i :: 0 <= i < |ps| && Keeps(c, ps[i]) ==> ps[i] in FilterProducts(ps, c)
  {
    FilterProductsIsConjunction(ps, c);
    FilterIsSubsequence(p => Keeps(c, p), ps);
  }

  /** With every criterion empty the grid shows all products. */
  lemma NoCriteriaShowsAll(ps: seq<Product>)
    ensures FilterProducts(ps, NoCriteria) == ps
  {
    FilterProductsIsConjunction(ps, NoCriteria);
    FilterKeepsAll(p => Keeps(NoCriteria, p), ps);
  }

  /** Filtering the filtered list again with the same criteria changes nothing. */
  lemma FilterProductsIdempotent(ps: seq<Product>, c: Criteria)
    ensures FilterProducts(FilterProducts(ps, c), c) == FilterProducts(ps, c)
  {
    FilterProductsIsConjunction(ps, c);
    FilterProductsIsConjunction(FilterProducts(ps, c), c);
    FilterIdempotent(p => Keeps(c, p), ps);
  }

  /** Region selection is OR over the selected set: a product is kept by the region stage
      exactly when one selected id is among its mapped region ids; a product without
      mappings is dropped by any selection. */
  lemma RegionCriterion(c: Criteria, p: Product)
    requires |c.selectedRegions| > 0
    ensures RegionOk(c, p) <==>
              exists j, k :: 0 <= j < |c.selectedRegions| && 0 <= k < |RegionIds(p)| && c.selectedRegions[j] == Some(RegionIds(p)[k])
    ensures p.regionMappings.None? || p.regionMappings.value == [] ==> !Keeps(c, p)
  {
    if RegionOk(c, p) {
      var j :| 0 <= j < |c.selectedRegions| && c.selectedRegions[j].Some? && c.selectedRegions[j].value in RegionIds(p);
      var k :| 0 <= k < |RegionIds(p)| && RegionIds(p)[k] == c.selectedRegions[j].value;
      assert c.selectedRegions[j] == Some(RegionIds(p)[k]);
    }
  }

  /** Regions {1, 2} match a selection of {2, 3} but not one of {3, 4}. */
  lemma RegionExample(p: Product)
    requires p.regionMappings == Some([RegionMapping(Region(1, "Lisbon")), RegionMapping(Region(2, "Porto"))])
    ensures RegionOk(Criteria("", [Some(2), Some(3)], "", ""), p)
    ensures !RegionOk(Criteria("", [Some(3), Some(4)], "", ""), p)
  {
    assert RegionIds(p) == [1, 2];
    assert Criteria("", [Some(2), Some(3)], "", "").selectedRegions[0] == Some(2);
  }

  // ----- cascading category -> subcategory selection -----

  /** The page state the filter bar and the product dialog share: the grid's criteria and
      `filteredSubCategories`, the list the product dialog's subcategory select offers. */
  datatype FilterState = FilterState(criteria: Criteria, dialogSubCategories: seq<FilterSearch.SubCategoryOption>)

  /** `subCategories.filter(sc => sc.category_id === categoryId)`. */
  function OfCategory(subs: seq<FilterSearch.SubCategoryOption>, categoryId: string): (r: seq<FilterSearch.SubCategoryOption>)
    ensures IsSubsequence(r, subs)
    ensures forall i :: 0 <= i < |r| ==> r[i] in subs && r[i].categoryId == categoryId
    ensures forall i :: 0 <= i < |subs| && subs[i].categoryId == categoryId ==> subs[i] in r
  {
    FilterIsSubsequence((sc: FilterSearch.SubCategoryOption) => sc.categoryId == categoryId, subs);
    Filter((sc: FilterSearch.SubCategoryOption) => sc.categoryId == categoryId, subs)
  }

  /** The filter bar's category handler: select it, clear the subcategory, recompute the
      dialog's list. */
  function OnFilterCategoryChange(s: FilterState, subs: seq<FilterSearch.SubCategoryOption>, categoryId: string): (r: FilterState)
    ensures r.criteria.selectedCategory == categoryId && r.criteria.selectedSubCategory == ""
    ensures r.criteria.searchQuery == s.criteria.searchQuery && r.criteria.selectedRegions == s.criteria.selectedRegions
    ensures forall i :: 0 <= i < |r.dialogSubCategories| ==> r.dialogSubCategories[i].categoryId == categoryId
  {
    FilterState(
      s.criteria.(selectedCategory := categoryId, selectedSubCategory := ""),
      OfCategory(subs, categoryId))
  }

  /** The options effect, keyed on `selectedCategory`: it runs only when the category differs
      from `prior`, the value of the previous render, and then offers every subcategory for
      "All Categories" and otherwise those of the category. */
  function OptionsEffect(prior: string, s: FilterState, subs: seq<FilterSearch.SubCategoryOption>): (r: FilterState)
    ensures r.criteria == s.criteria
    ensures s.criteria.selectedCategory == prior ==> r == s
    ensures s.criteria.selectedCategory != prior && s.criteria.selectedCategory == "" ==> r.dialogSubCategories == subs
    ensures s.criteria.selectedCategory != prior && s.criteria.selectedCategory != "" ==>
              r.dialogSubCategories == OfCategory(subs, s.criteria.selectedCategory)
  {
    if s.criteria.selectedCategory == prior then s
    else s.(dialogSubCategories := FilterSearch.OptionsFor(subs, s.criteria.selectedCategory))
  }

  /** After a category change settles, the subcategory filter is "all". The dialog's list
      holds the subcategories of the new category, in order; "All Categories" reached from
      another category offers all of them, but re-choosing the current one leaves the
      handler's `=== categoryId` list, since the effect does not run. */
  lemma CategoryChangeSettles(s: FilterState, subs: seq<FilterSearch.SubCategoryOption>, categoryId: string)
    ensures var t := OptionsEffect(s.criteria.selectedCategory, OnFilterCategoryChange(s, subs, categoryId), subs);
            && t.criteria.selectedSubCategory == ""
            && (categoryId == s.criteria.selectedCategory ==> t.dialogSubCategories == OfCategory(subs, categoryId))
            && (categoryId != s.criteria.selectedCategory && categoryId == "" ==> t.dialogSubCategories == subs)
            && (categoryId != "" ==> IsSubsequence(t.dialogSubCategories, subs))
            && (categoryId != "" ==> forall i :: 0 <= i < |t.dialogSubCategories| ==> t.dialogSubCategories[i].categoryId == categoryId)
  {
  }

  /** The page's `onRegionChange`: `Number(r.id)` of each chosen option. */
  function RegionNumbers(rs: seq<FilterSearch.RegionOption>): (r: seq<Option<int>>)
    ensures |r| == |rs|
    ensures forall i :: 0 <= i < |r| ==> r[i] == JsNumber(Str(rs[i].id))
  {
    seq(|rs|, i requires 0 <= i < |rs| => JsNumber(Str(rs[i].id)))
  }

  /** The master list handed to the bar: `r.id.toString()`. */
  function RegionOptions(regions: seq<Region>): (r: seq<FilterSearch.RegionOption>)
    ensures |r| == |regions|
    ensures forall i :: 0 <= i < |r| ==> r[i] == FilterSearch.RegionOption(JsString(Num(regions[i].id)), regions[i].name)
  {
    seq(|regions|, i requires 0 <= i < |regions| => FilterSearch.RegionOption(JsString(Num(regions[i].id)), regions[i].name))
  }

  /** Choosing options from the master list gives back their numeric ids. */
  lemma RegionNumbersRoundTrip(regions: seq<Region>)
    ensures RegionNumbers(RegionOptions(regions)) == seq(|regions|, i requires 0 <= i < |regions| => Some(regions[i].id))
  {
    forall i | 0 <= i < |regions|
      ensures RegionNumbers(RegionOptions(regions))[i] == Some(regions[i].id)
    {
      NumberOfString(regions[i].id);
    }
  }

  /** The page's handlers for the bar's callbacks. */
  function OnEvent(s: FilterState, subs: seq<FilterSearch.SubCategoryOption>, e: FilterSearch.Event): FilterState
  {
    match e
    case SearchChanged(q) => s.(criteria := s.criteria.(searchQuery := q))
    case RegionsChanged(rs) => s.(criteria := s.criteria.(selectedRegions := RegionNumbers(rs)))
    case CategoryChanged(id) => OnFilterCategoryChange(s, subs, id)
    case SubCategoryChanged(id) => s.(criteria := s.criteria.(selectedSubCategory := id))
  }

  function OnEvents(s: FilterState, subs: seq<FilterSearch.SubCategoryOption>, es: seq<FilterSearch.Event>): FilterState
    decreases |es|
  {
    if |es| == 0 then s else OnEvents(OnEvent(s, subs, es[0]), subs, es[1..])
  }

  /** After the clear button, once the options effect has had its chance, the criteria are
      all empty and the grid shows every product. The dialog's list is every subcategory when
      a category had been selected; when none had, the effect does not run and the handler's
      `=== ''` list stands. */
  lemma ClearAllShowsEverything(s: FilterState, subs: seq<FilterSearch.SubCategoryOption>, ps: seq<Product>)
    ensures var t := OptionsEffect(s.criteria.selectedCategory, OnEvents(s, subs, FilterSearch.ClearAllEvents), subs);
            && t.criteria == NoCriteria
            && FilterProducts(ps, t.criteria) == ps
            && (s.criteria.selectedCategory != "" ==> t.dialogSubCategories == subs)
            && (s.criteria.selectedCategory == "" ==> t.dialogSubCategories == OfCategory(subs, ""))
  {
    var es := FilterSearch.ClearAllEvents;
    assert es[1..] == [FilterSearch.RegionsChanged([]), FilterSearch.CategoryChanged(""), FilterSearch.SubCategoryChanged("")];
    assert es[1..][1..] == [FilterSearch.CategoryChanged(""), FilterSearch.SubCategoryChanged("")];
    assert es[1..][1..][1..] == [FilterSearch.SubCategoryChanged("")];
    NoCriteriaShowsAll(ps);
  }

  // ----- opening the product dialog -----

  /** `product.subcategory?.category?.id.toString() || ''`. */
  function ProductCategory(p: Product): string
  {
    if p.subcategory.Some? && p.subcategory.value.category.Some? then JsString(p.subcategory.value.category.value.id) else ""
  }

  /** `handleOpen` as written: the dialog's category is stored in the page's
      `selectedCategory`, the very state the grid filter reads, and the subcategory filter is
      left as it was. "Add Product" clears the category and empties the dialog's list. */
  function OpenProduct(s: FilterState, subs: seq<FilterSearch.SubCategoryOption>, p: Option<Product>): (r: FilterState)
    ensures p.Some? ==> r.criteria == s.criteria.(selectedCategory := ProductCategory(p.value))
    ensures p.None? ==> r.criteria == s.criteria.(selectedCategory := "")
    ensures p.Some? ==> forall i :: 0 <= i < |r.dialogSubCategories| ==> r.dialogSubCategories[i].categoryId == ProductCategory(p.value)
    ensures p.None? ==> r.dialogSubCategories == []
  {
    match p
    case Some(product) =>
      var categoryId := ProductCategory(product);
      FilterState(s.criteria.(selectedCategory := categoryId), OfCategory(subs, categoryId))
    case None => FilterState(s.criteria.(selectedCategory := ""), [])
  }

  /** Opening a product re-filters the grid behind the dialog by that product's category,
      whatever category the filter bar had selected, while the bar's subcategory stays in
      force; closing the dialog does not undo it. */
  lemma OpenRefiltersGrid(s: FilterState, subs: seq<FilterSearch.SubCategoryOption>, p: Product, ps: seq<Product>)
    ensures forall q :: q in FilterProducts(ps, OpenProduct(s, subs, Some(p)).criteria) <==>
              && q in ps && SearchOk(s.criteria, q) && RegionOk(s.criteria, q)
              && (ProductCategory(p) == "" || CategoryIdText(q) == ProductCategory(p))
              && (s.criteria.selectedSubCategory == "" || SubCategoryIdText(q) == s.criteria.selectedSubCategory)
  {
    var c := OpenProduct(s, subs, Some(p)).criteria;
    var grid := FilterProducts(ps, c);
    FilterProductsIsConjunction(ps, c);
    forall q
      ensures q in grid <==> q in ps && Keeps(c, q)
    {
      if q in grid {
        var i :| 0 <= i < |grid| && grid[i] == q;
      }
      if q in ps {
        var i :| 0 <= i < |ps| && ps[i] == q;
      }
      KeepsWithCategory(s.criteria, ProductCategory(p), q);
    }
  }

  /** Swapping in another category changes only the category test of the filter. */
  lemma KeepsWithCategory(c: Criteria, categoryId: string, q: Product)
    ensures Keeps(c.(selectedCategory := categoryId), q) <==>
              && SearchOk(c, q) && RegionOk(c, q)
              && (categoryId == "" || CategoryIdText(q) == categoryId)
              && (c.selectedSubCategory == "" || SubCategoryIdText(q) == c.selectedSubCategory)
  {
  }

  /** With no filter set, a grid of a category-7 and a category-3 product shows only the
      first once the first has been opened for editing. */
  lemma OpenHidesOtherCategories(s: FilterState, subs: seq<FilterSearch.SubCategoryOption>, p: Product, q: Product)
    requires s.criteria == NoCriteria
    requires p.subcategory == Some(SubCategoryRef(Num(70), "Linen", Some(CategoryRef(Num(7), "Fabrics"))))
    requires q.subcategory == Some(SubCategoryRef(Num(30), "Velvet", Some(CategoryRef(Num(3), "Upholstery"))))
    ensures FilterProducts([p, q], s.criteria) == [p, q]
    ensures FilterProducts([p, q], OpenProduct(s, subs, Some(p)).criteria) == [p]
  {
    NoCriteriaShowsAll([p, q]);
    var c := OpenProduct(s, subs, Some(p)).criteria;
    assert ProductCategory(p) == "7" && CategoryIdText(p) == "7" by {
      assert JsString(Num(7)) == Decimal.IntToDecimal(7);
    }
    assert CategoryIdText(q) == "3" by {
      assert JsString(Num(3)) == Decimal.IntToDecimal(3);
    }
    var k := x => Keeps(c, x);
    assert k(p) && !k(q);
    FilterProductsIsConjunction([p, q], c);
    assert [p, q][1..] == [q] && [q][1..] == [];
    assert Filter(k, [q]) == [];
  }

  /** The product dialog with a category of its own, as the page evidently intends: the
      dialog's category and subcategory list, kept apart from the filter criteria. */
  datatype ProductDialog = ProductDialog(category: string, subCategories: seq<FilterSearch.SubCategoryOption>)

  /** `handleOpen` with the dialog's category kept in the dialog: the filter state is
      returned untouched next to the dialog. */
  function OpenProductCorrected(s: FilterState, subs: seq<FilterSearch.SubCategoryOption>, p: Option<Product>): (r: (FilterState, ProductDialog))
    ensures r.0 == s
    ensures p.None? ==> r.1 == ProductDialog("", [])
    ensures p.Some? ==> r.1.category == ProductCategory(p.value)
    ensures forall i :: 0 <= i < |r.1.subCategories| ==> r.1.subCategories[i] in subs && r.1.subCategories[i].categoryId == r.1.category
    ensures p.Some? ==> forall i :: 0 <= i < |subs| && subs[i].categoryId == r.1.category ==> subs[i] in r.1.subCategories
  {
    match p
    case Some(product) =>
      var categoryId := ProductCategory(product);
      (s, ProductDialog(categoryId, OfCategory(subs, categoryId)))
    case None => (s, ProductDialog("", []))
  }

  /** With the dialog's category kept apart, opening any product leaves the grid exactly as
      the filter bar set it, and the dialog still offers the product's own subcategory. */
  lemma CorrectedOpenKeepsGrid(s: FilterState, subs: seq<FilterSearch.SubCategoryOption>, p: Product, ps: seq<Product>)
    ensures FilterProducts(ps, OpenProductCorrected(s, subs, Some(p)).0.criteria) == FilterProducts(ps, s.criteria)
    ensures forall i :: 0 <= i < |subs| && subs[i].id == SubCategoryIdText(p) && subs[i].categoryId == ProductCategory(p) ==>
              subs[i] in OpenProductCorrected(s, subs, Some(p)).1.subCategories
  {
  }

  // ----- the colour and care-instruction editors -----

  /** One colour row of the product form. */
  datatype ColorEntry = ColorEntry(colorName: string, colorCode: string, imageUrl: string, isDefault: bool)

  const BlankColor := ColorEntry("", "", "", false)

  predicate AtMostOneDefault(colors: seq<ColorEntry>)
  {
    forall i, j :: 0 <= i < |colors| && 0 <= j < |colors| && colors[i].isDefault && colors[j].isDefault ==> i == j
  }

  /** The "Default" switch of colour `index`: switching on first clears every flag. */
  function SetDefault(colors: seq<ColorEntry>, index: nat, checked: bool): (r: seq<ColorEntry>)
    requires index < |colors|
    ensures |r| == |colors|
    ensures forall j :: 0 <= j < |r| ==> r[j].(isDefault := false) == colors[j].(isDefault := false)
    ensures checked ==> forall j :: 0 <= j < |r| ==> (r[j].isDefault <==> j == index)
    ensures !checked ==> !r[index].isDefault && forall j :: 0 <= j < |r| && j != index ==> r[j] == colors[j]
  {
    var cleared := if checked then seq(|colors|, j requires 0 <= j < |colors| => colors[j].(isDefault := false)) else colors;
    cleared[index := cleared[index].(isDefault := checked)]
  }

  /** The switch keeps "at most one default colour", whatever it was set to. */
  lemma SetDefaultKeepsOneDefault(colors: seq<ColorEntry>, index: nat, checked: bool)
    requires index < |colors| && AtMostOneDefault(colors)
    ensures AtMostOneDefault(SetDefault(colors, index, checked))
  {
  }

  /** The delete button of colour `index`. */
  function RemoveColor(colors: seq<ColorEntry>, index: int): (r: seq<ColorEntry>)
    ensures 0 <= index < |colors| ==> |r| == |colors| - 1
    ensures 0 <= index < |colors| ==> forall j :: 0 <= j < |r| ==> r[j] == colors[if j < index then j else j + 1]
    ensures !(0 <= index < |colors|) ==> r == colors
    ensures 0 <= index < |colors| && colors[index].isDefault && AtMostOneDefault(colors) ==>
              forall j :: 0 <= j < |r| ==> !r[j].isDefault
  {
    DropIndex(colors, index)
  }

  /** "Add Color": one blank, non-default entry at the end. */
  function AddColor(colors: seq<ColorEntry>): (r: seq<ColorEntry>)
    ensures |r| == |colors| + 1 && r[..|colors|] == colors && r[|colors|] == BlankColor
  {
    colors + [BlankColor]
  }

  /** Removing or adding colours cannot create a second default. */
  lemma ColorEditsKeepOneDefault(colors: seq<ColorEntry>, index: int)
    requires AtMostOneDefault(colors)
    ensures AtMostOneDefault(RemoveColor(colors, index))
    ensures AtMostOneDefault(AddColor(colors))
  {
    var r := RemoveColor(colors, index);
    if 0 <= index < |colors| {
      forall i, j | 0 <= i < |r| && 0 <= j < |r| && r[i].isDefault && r[j].isDefault
        ensures i == j
      {
        var i' := if i < index then i else i + 1;
        var j' := if j < index then j else j + 1;
        assert colors[i'].isDefault && colors[j'].isDefault;
      }
    }
  }

  /** The delete button of care instruction `index`. */
  function RemoveInstruction(instructions: seq<string>, index: int): (r: seq<string>)
    ensures 0 <= index < |instructions| ==> |r| == |instructions| - 1
    ensures 0 <= index < |instructions| ==> forall j :: 0 <= j < |r| ==> r[j] == instructions[if j < index then j else j + 1]
    ensures !(0 <= index < |instructions|) ==> r == instructions
  {
    DropIndex(instructions, index)
  }

  /** "Add Care Instruction": an empty instruction at the end. */
  function AddInstruction(instructions: seq<string>): (r: seq<string>)
    ensures |r| == |instructions| + 1 && r[..|instructions|] == instructions && r[|instructions|] == ""
  {
    instructions + [""]
  }

  /** Typing into instruction `index` replaces that entry only. */
  function EditInstruction(instructions: seq<string>, index: nat, text: string): (r: seq<string>)
    requires index < |instructions|
    ensures |r| == |instructions| && r[index] == text
    ensures forall j :: 0 <= j < |r| && j != index ==> r[j] == instructions[j]
  {
    instructions[index := text]
  }

  // ----- form load and the rows written on save -----

  /** The list-valued part of the product form. */
  datatype ProductForm = ProductForm(regionIds: seq<int>, colors: seq<ColorEntry>, careInstructions: seq<string>)

  /** `image_url || ''` and `is_default || false` of a stored colour. */
  function EntryOf(pc: ProductColor): ColorEntry
  {
    ColorEntry(pc.name, pc.colorCode, pc.imageUrl.GetOr(""), pc.isDefault.GetOr(false))
  }

  /** Opening a product for editing fills the lists from its nested rows. */
  function LoadForm(p: Product): (f: ProductForm)
    ensures f.regionIds == RegionIds(p)
    ensures p.colors.Some? ==> |f.colors| == |p.colors.value|
    ensures p.colors.Some? ==>
              forall i :: 0 <= i < |f.colors| ==>
                && f.colors[i].colorName == p.colors.value[i].name
                && f.colors[i].colorCode == p.colors.value[i].colorCode
                && f.colors[i].imageUrl == p.colors.value[i].imageUrl.GetOr("")
                && f.colors[i].isDefault == (p.colors.value[i].isDefault == Some(true))
    ensures p.colors.None? ==> f.colors == []
    ensures p.careInstructions.Some? ==> |f.careInstructions| == |p.careInstructions.value|
    ensures p.careInstructions.Some? ==>
              forall i :: 0 <= i < |f.careInstructions| ==> f.careInstructions[i] == p.careInstructions.value[i].instruction
    ensures p.careInstructions.None? ==> f.careInstructions == []
  {
    var colors := (match p.colors
      case None => []
      case Some(cs) => seq(|cs|, i requires 0 <= i < |cs| => EntryOf(cs[i])));
    var care := (match p.careInstructions
      case None => []
      case Some(cis) => seq(|cis|, i requires 0 <= i < |cis| => cis[i].instruction));
    ProductForm(RegionIds(p), colors, care)
  }

  datatype RegionProductRow = RegionProductRow(regionId: int, productId: int)
  datatype ColorRow = ColorRow(productId: int, name: string, colorCode: string, imageUrl: string, isDefault: bool)
  datatype CareRow = CareRow(productId: int, instruction: string)

  /** One mapping row per selected region id, in order, each for this product. */
  function RegionRows(regionIds: seq<int>, productId: int): (r: seq<RegionProductRow>)
    ensures |r| == |regionIds|
    ensures forall i :: 0 <= i < |r| ==> r[i].regionId == regionIds[i] && r[i].productId == productId
  {
    seq(|regionIds|, i requires 0 <= i < |regionIds| => RegionProductRow(regionIds[i], productId))
  }

  /** One colour row per form colour, in order. */
  function ColorRows(colors: seq<ColorEntry>, productId: int): (r: seq<ColorRow>)
    ensures |r| == |colors|
    ensures forall i :: 0 <= i < |r| ==>
              r[i] == ColorRow(productId, colors[i].colorName, colors[i].colorCode, colors[i].imageUrl, colors[i].isDefault)
  {
    seq(|colors|, i requires 0 <= i < |colors| =>
      ColorRow(productId, colors[i].colorName, colors[i].colorCode, colors[i].imageUrl, colors[i].isDefault))
  }

  /** One care-instruction row per form instruction, in order. */
  function CareRows(instructions: seq<string>, productId: int): (r: seq<CareRow>)
    ensures |r| == |instructions|
    ensures forall i :: 0 <= i < |r| ==> r[i] == CareRow(productId, instructions[i])
  {
    seq(|instructions|, i requires 0 <= i < |instructions| => CareRow(productId, instructions[i]))
  }

  /** Saving a product straight after opening it writes back the region ids it was shown with,
      the colour names and codes and the care instructions it had, in the same order. */
  lemma ReloadResavesSameRows(p: Product)
    ensures var rows := RegionRows(LoadForm(p).regionIds, p.id);
            forall i :: 0 <= i < |rows| ==> rows[i] == RegionProductRow(p.regionMappings.value[i].region.id, p.id)
    ensures p.colors.Some? ==>
              var rows := ColorRows(LoadForm(p).colors, p.id);
              forall i :: 0 <= i < |rows| ==>
                rows[i].name == p.colors.value[i].name && rows[i].colorCode == p.colors.value[i].colorCode
    ensures p.careInstructions.Some? ==>
              var rows := CareRows(LoadForm(p).careInstructions, p.id);
              |rows| == |p.careInstructions.value|
              && forall i :: 0 <= i < |rows| ==> rows[i] == CareRow(p.id, p.careInstructions.value[i].instruction)
  {
  }

  /** Colour rows written after switching a colour's default on carry exactly one default,
      that colour's. */
  lemma SavedColorsHaveOneDefault(colors: seq<ColorEntry>, index: nat, productId: int)
    requires index < |colors|
    ensures var rows := ColorRows(SetDefault(colors, index, true), productId);
            forall i, j :: 0 <= i < |rows| && 0 <= j < |rows| && rows[i].isDefault && rows[j].isDefault ==> i == j
    ensures var rows := ColorRows(SetDefault(colors, index, true), productId);
            |rows| == |colors| && rows[index].isDefault
  {
  }
}

=== FILE: regions.dfy ===
/** The regions page: the record form (a partial region keyed by column name), its change
    handlers, validation, the update payload, category reconstruction and the save. */
module Regions {
  import opened Wrappers
  import opened Seqs
  import Text
  import Joins
  import Persist
  import opened Ids

  /** A column value held by the form: text from an input, a flag from a switch, a number
      (ids, counts) or a database null. */
  datatype Field = Text(text: string) | Flag(flag: bool) | Number(n: int) | Null

  /** `Partial<Region>`: the columns present and their values. */
  type Form = map<string, Field>

  /** The text columns of a region, all of them inputs of the form. */
  const TextColumns: set<string> := {
    "name", "locale", "code",
    "image_url_1", "image_url_2", "image_url_3", "image_url_4",
    "address_1", "address_2", "contact_no_1", "contact_no_2", "email_1", "email_2",
    "whatsapp_no", "city", "country", "map_url", "icon_url", "business_hours"}

  /** The one switch of the form. */
  const BusinessHoursSwitch := "enable_business_hours"

  /** The blank form: every text column empty, business hours switched off. */
  const DefaultRegion: Form := (map k | k in TextColumns :: Text(""))[BusinessHoursSwitch := Flag(false)]

  /** In the default form every text column is empty and the one switch is off. */
  lemma DefaultRegionShape()
    ensures DefaultRegion["enable_business_hours"] == Flag(false)
    ensures "name" in DefaultRegion && "code" in DefaultRegion && "locale" in DefaultRegion
    ensures forall k :: k in DefaultRegion && k != "enable_business_hours" ==> DefaultRegion[k] == Text("")
  {
  }

  /** `formData[key]?.trim()` is a non-empty string. */
  predicate Filled(form: Form, key: string)
  {
    key in form && form[key].Text? && Text.Trim(form[key].text) != ""
  }

  /** The submit guard: name and code must be non-blank after trimming. */
  predicate IsValid(form: Form)
  {
    Filled(form, "name") && Filled(form, "code")
  }

  /** A text that trims to nothing is made of whitespace only. */
  lemma FilledMeansVisible(form: Form, key: string)
    ensures Filled(form, key) <==>
              key in form && form[key].Text? && exists i :: 0 <= i < |form[key].text| && !Text.IsJsWhitespace(form[key].text[i])
  {
  }

  /** The blank form never passes the guard. */
  lemma DefaultRegionInvalid()
    ensures !IsValid(DefaultRegion)
  {
    DefaultRegionShape();
    var name := DefaultRegion["name"];
    assert name == Text("");
    EmptyNameInvalid(DefaultRegion);
  }

  /** A form whose name is the empty text fails the guard. */
  lemma EmptyNameInvalid(form: Form)
    requires "name" in form && form["name"] == Text("")
    ensures !IsValid(form)
  {
    Text.TrimEmpty();
  }

  /** `const { name, code, locale, ...updatableFields } = formData`. */
  function UpdatePayload(form: Form): (p: Form)
    ensures "name" !in p && "code" !in p && "locale" !in p
    ensures forall k :: k != "name" && k != "code" && k != "locale" ==> (k in p <==> k in form)
    ensures forall k :: k in p ==> p[k] == form[k]
  {
    form - {"name", "code", "locale"}
  }

  /** `handleChange(field)`: the input's text replaces that one column. */
  function HandleChange(form: Form, field: string, value: string): (r: Form)
    ensures field in r && r[field] == Text(value)
    ensures forall k :: k != field ==> (k in r <==> k in form)
    ensures forall k :: k != field && k in r ==> r[k] == form[k]
  {
    form[field := Text(value)]
  }

  /** `handleSwitchChange(field)`: the switch's state replaces that one column. */
  function HandleSwitchChange(form: Form, field: string, checked: bool): (r: Form)
    ensures field in r && r[field] == Flag(checked)
    ensures forall k :: k != field ==> (k in r <==> k in form)
    ensures forall k :: k != field && k in r ==> r[k] == form[k]
  {
    form[field := Flag(checked)]
  }

  /** Editing a column the update payload strips does not change what an update sends. */
  lemma StrippedEditsNotSent(form: Form, field: string, value: string)
    requires field == "name" || field == "code" || field == "locale"
    ensures UpdatePayload(HandleChange(form, field, value)) == UpdatePayload(form)
  {
  }

  /** A category as nested in a fetched `region_category_mapping` row, id as the database returns it. */
  datatype CategoryRef = CategoryRef(id: Id, name: string)

  /** `data.map(m => m.categories).filter(c => c !== null)`. */
  function RegionCategories(mapping: seq<Option<CategoryRef>>): (r: seq<CategoryRef>)
    ensures |r| <= |mapping|
    ensures forall i :: 0 <= i < |r| ==> Some(r[i]) in mapping
    ensures forall i :: 0 <= i < |mapping| && mapping[i].Some? ==> mapping[i].value in r
    ensures IsSubsequence(Wrap(r), mapping)
  {
    Joins.Nested(Some(mapping)).value
  }

  datatype Dialog = Dialog(open: bool, editing: Option<int>, form: Form, selectedCategories: seq<CategoryRef>)

  /** "Edit" on a region (its row becomes the form; its categories are fetched, and a failed
      fetch, `None`, leaves the selection as it was) or "Add Region". */
  function Open(d: Dialog, region: Option<(int, Form)>, fetched: Option<seq<Option<CategoryRef>>>): (r: Dialog)
    ensures r.open
    ensures region.None? ==> r.editing.None? && r.form == DefaultRegion && r.selectedCategories == []
    ensures region.Some? ==> r.editing == Some(region.value.0) && r.form == region.value.1
    ensures region.Some? && fetched.None? ==> r.selectedCategories == d.selectedCategories
    ensures region.Some? && fetched.Some? ==> r.selectedCategories == RegionCategories(fetched.value)
    ensures region.Some? && fetched.Some? ==> |r.selectedCategories| <= |fetched.value|
  {
    match region
    case None => Dialog(true, None, DefaultRegion, [])
    case Some((id, row)) =>
      var categories := if fetched.Some? then RegionCategories(fetched.value) else d.selectedCategories;
      Dialog(true, Some(id), row, categories)
  }

  /** Reopening a region whose mapping rows all still point at existing categories
      selects exactly those categories again, in the stored order. */
  lemma {:induction false} ReopenRestoresSelection(d: Dialog, id: int, row: Form, stored: seq<CategoryRef>)
    ensures Open(d, Some((id, row)), Some(Wrap(stored))).selectedCategories == stored
  {
    Joins.NestedOfLiveRows(stored);
  }

  /** Cancel, or the end of a successful save. */
  function Close(d: Dialog): (r: Dialog)
    ensures !r.open && r.editing.None? && r.form == DefaultRegion && r.selectedCategories == []
  {
    Dialog(false, None, DefaultRegion, [])
  }

  /** After closing, the dialog cannot be submitted as it stands. */
  lemma ClosedFormInvalid(d: Dialog)
    ensures !IsValid(Close(d).form)
  {
    DefaultRegionInvalid();
  }

  /** `region_category_mapping` rows: this region's id and each selected category's id. */
  type MappingRow = Joins.Link<int, Id>

  function CategoryIdsOf(categories: seq<CategoryRef>): (r: seq<Id>)
    ensures |r| == |categories|
    ensures forall i :: 0 <= i < |r| ==> r[i] == categories[i].id
  {
    seq(|categories|, i requires 0 <= i < |categories| => categories[i].id)
  }

  function MappingRows(regionId: int, selected: seq<CategoryRef>): (r: seq<MappingRow>)
    ensures |r| == |selected|
    ensures forall i :: 0 <= i < |r| ==> r[i].owner == regionId && r[i].target == selected[i].id
  {
    Joins.LinkRows(regionId, CategoryIdsOf(selected))
  }

  /** The payload each path sends: the stripped form on update, the whole form on create. */
  function PayloadFor(d: Dialog): Form
  {
    if d.editing.Some? then UpdatePayload(d.form) else d.form
  }

  /** Submit: the guard first, then update or create and rewrite the mappings, this time
      stopping when the mapping delete fails. */
  function Submit(d: Dialog, replies: Persist.Replies<int>): (r: Persist.Run<int, Form, MappingRow>)
    ensures !IsValid(d.form) ==> r == Persist.Run([], Persist.Failed)
    ensures IsValid(d.form) && d.editing.Some? ==> |r.calls| >= 1 && r.calls[0] == Persist.UpdateEntity(d.editing.value, UpdatePayload(d.form))
    ensures IsValid(d.form) && d.editing.None? ==> |r.calls| >= 1 && r.calls[0] == Persist.InsertEntity(d.form)
  {
    if !IsValid(d.form) then Persist.Run([], Persist.Failed)
    else Persist.Save(d.editing, PayloadFor(d), RowsFor(d.selectedCategories), true, replies)
  }

  /** The mapping rows a save writes for whichever key the region ends up with. */
  function RowsFor(selected: seq<CategoryRef>): int -> seq<MappingRow>
  {
    id => MappingRows(id, selected)
  }

  /** A successful save of a valid region, edited or created with a returned key, inserts
      one mapping row per selected category exactly when there are any, and no other rows;
      an edited region's old mappings were deleted first. */
  lemma SubmitWritesSelection(d: Dialog, replies: Persist.Replies<int>)
    requires IsValid(d.form)
    requires Submit(d, replies).outcome == Persist.Saved
    requires Persist.SavedKey(d.editing, replies).Some?
    ensures var r := Submit(d, replies);
            var key := Persist.SavedKey(d.editing, replies).value;
            && (|d.selectedCategories| > 0 <==> Persist.InsertMappings(MappingRows(key, d.selectedCategories)) in r.calls)
            && (forall i :: 0 <= i < |r.calls| && r.calls[i].InsertMappings? ==> r.calls[i].rows == MappingRows(key, d.selectedCategories))
            && (d.editing.Some? ==> Persist.DeleteMappingsOf(key) in r.calls)
  {
    Persist.SavedWritesSelection(d.editing, PayloadFor(d), RowsFor(d.selectedCategories), true, replies);
  }

  /** A blank name or code makes no call at all, whatever the database would answer. */
  lemma BlankNameOrCodeMakesNoCall(d: Dialog, replies: Persist.Replies<int>)
    requires !Filled(d.form, "name") || !Filled(d.form, "code")
    ensures Submit(d, replies).calls == [] && Submit(d, replies).outcome == Persist.Failed
  {
  }

  /** An update never sends name, code or locale, and a failing mapping delete stops it
      before any insert. */
  lemma UpdateSendsNoIdentity(d: Dialog, replies: Persist.Replies<int>)
    requires d.editing.Some?
    ensures var r := Submit(d, replies);
            forall i :: 0 <= i < |r.calls| && r.calls[i].UpdateEntity? ==>
              "name" !in r.calls[i].payload && "code" !in r.calls[i].payload && "locale" !in r.calls[i].payload
    ensures IsValid(d.form) && replies.updateOk && !replies.deleteMappingsOk ==>
              Submit(d, replies).calls == [Persist.UpdateEntity(d.editing.value, UpdatePayload(d.form)), Persist.DeleteMappingsOf(d.editing.value)]
  {
    if !IsValid(d.form) {
      return;
    }
    var rowsFor := RowsFor(d.selectedCategories);
    var payload := UpdatePayload(d.form);
    var r := Submit(d, replies);
    assert r == Persist.Save(d.editing, payload, rowsFor, true, replies);
    assert "name" !in payload && "code" !in payload && "locale" !in payload;
    forall i | 0 <= i < |r.calls| && r.calls[i].UpdateEntity?
      ensures r.calls[i].payload == payload
    {
      assert i == 0;
    }
    if replies.updateOk && !replies.deleteMappingsOk {
      Persist.CheckedDeleteStops(d.editing.value, payload, rowsFor, replies);
    }
  }
}

=== FILE: seqs.dfy ===
/** Generic order-preserving list operations: the model's counterparts of
    `Array.prototype.filter` and of the `map(...).filter(x => x !== null)` idiom. */
module Seqs {
  import opened Wrappers

  /** The elements of `s` that satisfy `p`, in their original order. */
  function Filter<T(==)>(p: T -> bool, s: seq<T>): (r: seq<T>)
    ensures |r| <= |s|
    ensures forall i :: 0 <= i < |r| ==> r[i] in s && p(r[i])
    ensures forall i :: 0 <= i < |s| && p(s[i]) ==> s[i] in r
  {
    if |s| == 0 then []
    else if p(s[0]) then [s[0]] + Filter(p, s[1..])
    else Filter(p, s[1..])
  }

  /** Filtering keeps each element exactly as often as it occurs, when it matches, and never
      otherwise: `Filter(p, [x, x])` is `[x, x]` or `[]`. */
  lemma {:induction false} FilterCounts<T>(p: T -> bool, s: seq<T>)
    ensures forall x :: multiset(Filter(p, s))[x] == if p(x) then multiset(s)[x] else 0
    decreases |s|
  {
    if |s| > 0 {
      FilterCounts(p, s[1..]);
      assert s == [s[0]] + s[1..];
      assert multiset(s) == multiset([s[0]]) + multiset(s[1..]);
      if p(s[0]) {
        assert multiset(Filter(p, s)) == multiset([s[0]]) + multiset(Filter(p, s[1..]));
      }
    }
  }

  /** `a` can be obtained from `b` by deleting elements (order is kept). */
  predicate IsSubsequence<T(==)>(a: seq<T>, b: seq<T>)
    decreases |b|
  {
    || |a| == 0
    || (&& |b| > 0
        && ((a[0] == b[0] && IsSubsequence(a[1..], b[1..])) || IsSubsequence(a, b[1..])))
  }

  /** Every sequence is a subsequence of itself. */
  lemma {:induction false} IsSubsequenceReflexive<T>(s: seq<T>)
    ensures IsSubsequence(s, s)
    decreases |s|
  {
    if |s| > 0 {
      IsSubsequenceReflexive(s[1..]);
    }
  }

  /** Filtering keeps a subsequence of its input: nothing is invented, nothing is reordered. */
  lemma {:induction false} FilterIsSubsequence<T>(p: T -> bool, s: seq<T>)
    ensures IsSubsequence(Filter(p, s), s)
    decreases |s|
  {
    if |s| > 0 {
      FilterIsSubsequence(p, s[1..]);
      if p(s[0]) {
        var r := Filter(p, s);
        assert r[0] == s[0] && r[1..] == Filter(p, s[1..]);
      }
    }
  }

  /** Filtering with a predicate that every element satisfies changes nothing. */
  lemma {:induction false} FilterKeepsAll<T>(p: T -> bool, s: seq<T>)
    requires forall i :: 0 <= i < |s| ==> p(s[i])
    ensures Filter(p, s) == s
    decreases |s|
  {
    if |s| > 0 {
      FilterKeepsAll(p, s[1..]);
      assert [s[0]] + s[1..] == s;
    }
  }

  /** Two predicates that agree on the elements of `s` filter it identically. */
  lemma {:induction false} FilterCongruent<T>(p: T -> bool, q: T -> bool, s: seq<T>)
    requires forall i :: 0 <= i < |s| ==> p(s[i]) == q(s[i])
    ensures Filter(p, s) == Filter(q, s)
    decreases |s|
  {
    if |s| > 0 {
      FilterCongruent(p, q, s[1..]);
    }
  }

  /** Filtering twice is filtering once by the conjunction, first predicate first. */
  lemma {:induction false} FilterFilter<T>(p: T -> bool, q: T -> bool, both: T -> bool, s: seq<T>)
    requires forall x :: both(x) == (p(x) && q(x))
    ensures Filter(q, Filter(p, s)) == Filter(both, s)
    decreases |s|
  {
    if |s| > 0 {
      FilterFilter(p, q, both, s[1..]);
      if p(s[0]) {
        assert Filter(p, s) == [s[0]] + Filter(p, s[1..]);
        assert Filter(p, s)[1..] == Filter(p, s[1..]);
      }
    }
  }

  /** Nothing passes a predicate that no element satisfies. */
  lemma {:induction false} FilterNone<T>(p: T -> bool, s: seq<T>)
    requires forall i :: 0 <= i < |s| ==> !p(s[i])
    ensures Filter(p, s) == []
    decreases |s|
  {
    if |s| > 0 {
      FilterNone(p, s[1..]);
    }
  }

  /** Re-applying a filter to its own output returns that output unchanged. */
  lemma FilterIdempotent<T>(p: T -> bool, s: seq<T>)
    ensures Filter(p, Filter(p, s)) == Filter(p, s)
  {
    var r := Filter(p, s);
    assert forall i :: 0 <= i < |r| ==> r[i] in r;
    FilterKeepsAll(p, r);
  }

  /** Filtering distributes over concatenation. */
  lemma {:induction false} FilterAppend<T>(p: T -> bool, a: seq<T>, b: seq<T>)
    ensures Filter(p, a + b) == Filter(p, a) + Filter(p, b)
    decreases |a|
  {
    if |a| > 0 {
      assert (a + b)[1..] == a[1..] + b;
      FilterAppend(p, a[1..], b);
    } else {
      assert a + b == b;
    }
  }

  /** The present values of `s`, in order, with the absent ones dropped: the model of
      `rows.map(r => r.target).filter(t => t !== null)`. */
  function Somes<T(==)>(s: seq<Option<T>>): (r: seq<T>)
    ensures |r| <= |s|
    ensures forall i :: 0 <= i < |r| ==> Some(r[i]) in s
    ensures forall i :: 0 <= i < |s| && s[i].Some? ==> s[i].value in r
  {
    if |s| == 0 then []
    else match s[0]
      case Some(v) => [v] + Somes(s[1..])
      case None => Somes(s[1..])
  }

  /** Every value wrapped as present. */
  function Wrap<T>(s: seq<T>): (r: seq<Option<T>>)
    ensures |r| == |s|
    ensures forall i :: 0 <= i < |s| ==> r[i] == Some(s[i])
  {
    seq(|s|, i requires 0 <= i < |s| => Some(s[i]))
  }

  /** Dropping absent values is a homomorphism: order is kept block by block. */
  lemma {:induction false} SomesAppend<T>(a: seq<Option<T>>, b: seq<Option<T>>)
    ensures Somes(a + b) == Somes(a) + Somes(b)
    decreases |a|
  {
    if |a| > 0 {
      assert (a + b)[1..] == a[1..] + b;
      SomesAppend(a[1..], b);
    } else {
      assert a + b == b;
    }
  }

  /** Reading back rows whose targets all exist returns exactly the targets. */
  lemma {:induction false} SomesWrap<T>(s: seq<T>)
    ensures Somes(Wrap(s)) == s
    decreases |s|
  {
    if |s| > 0 {
      assert Wrap(s)[1..] == Wrap(s[1..]);
      SomesWrap(s[1..]);
    }
  }

  /** The present values keep their relative order: wrapped again, they are a subsequence
      of the input. */
  lemma {:induction false} SomesKeepsOrder<T>(s: seq<Option<T>>)
    ensures IsSubsequence(Wrap(Somes(s)), s)
    decreases |s|
  {
    if |s| > 0 {
      SomesKeepsOrder(s[1..]);
      if s[0].Some? {
        assert Somes(s) == [s[0].value] + Somes(s[1..]);
        assert Wrap(Somes(s))[1..] == Wrap(Somes(s[1..]));
      } else {
        assert Somes(s) == Somes(s[1..]);
        if |Wrap(Somes(s))| > 0 {
          assert IsSubsequence(Wrap(Somes(s)), s[1..]);
        }
      }
    }
  }

  /** The number of absent entries, i.e. how many rows reconstruction drops. */
  function CountNone<T>(s: seq<Option<T>>): nat
  {
    if |s| == 0 then 0 else (if s[0].None? then 1 else 0) + CountNone(s[1..])
  }

  /** Exactly the absent entries are dropped. */
  lemma {:induction false} SomesLength<T>(s: seq<Option<T>>)
    ensures |Somes(s)| + CountNone(s) == |s|
    decreases |s|
  {
    if |s| > 0 {
      SomesLength(s[1..]);
    }
  }

  /** `s` without position `i`, scanning positions like `s.filter((_, j) => j !== i)`;
      an `i` outside `s` removes nothing. */
  function DropIndex<T>(s: seq<T>, i: int): (r: seq<T>)
    ensures 0 <= i < |s| ==> r == s[..i] + s[i + 1..]
    ensures !(0 <= i < |s|) ==> r == s
    decreases |s|
  {
    if |s| == 0 then []
    else (if i == 0 then [] else [s[0]]) + DropIndex(s[1..], i - 1)
  }
}

=== FILE: subcategories.dfy ===
/** The subcategories page: region reconstruction, the three-stage list filter (as written,
    with strict equality between string and numeric region ids, and as evidently intended),
    the edit dialog, the save payload and mapping rows, and the delete order. */
module SubCategories {
  import opened Wrappers
  import opened Seqs
  import opened Ids
  import Text
  import Decimal
  import Joins
  import Persist

  datatype CategoryRef = CategoryRef(id: Id, name: string)

  /** A region as nested in a fetched mapping row (`regions(id, name)`; `code` is not selected). */
  datatype RegionRef = RegionRef(id: Id, name: string, code: Option<string>)

  /** A region as the filter widget and the form hold it: id already passed through `String`. */
  datatype RegionOption = RegionOption(id: Id, name: string, code: string)

  /** A region row of the `regions` table: numeric id. */
  datatype DbRegion = DbRegion(id: int, name: string, code: Option<string>)

  /** A fetched `sub_categories` row with its parent category and mapping rows; each mapping
      row contributes its nested region, `None` when that region no longer exists. */
  datatype Row = Row(
    id: Id,
    name: string,
    slug: string,
    description: Option<string>,
    imageUrl: Option<string>,
    iconUrl: Option<string>,
    categoryId: Id,
    orderIndex: int,
    category: Option<CategoryRef>,
    mapping: Option<seq<Option<RegionRef>>>)

  /** A row with its reconstructed `regions` (undefined when the mapping list is). */
  datatype SubCategory = SubCategory(row: Row, regions: Option<seq<RegionRef>>)

  /** `{ ...row, regions: row.region_subcategory_mapping?.map(m => m.regions).filter(r => r !== null) }` */
  function Reconstruct(row: Row): (s: SubCategory)
    ensures s.row == row
    ensures s.regions.None? <==> row.mapping.None?
    ensures s.regions.Some? ==> |s.regions.value| <= |row.mapping.value|
    ensures s.regions.Some? ==> forall i :: 0 <= i < |s.regions.value| ==> Some(s.regions.value[i]) in row.mapping.value
    ensures s.regions.Some? ==> forall i :: 0 <= i < |row.mapping.value| && row.mapping.value[i].Some? ==> row.mapping.value[i].value in s.regions.value
    ensures s.regions.Some? ==> IsSubsequence(Wrap(s.regions.value), row.mapping.value)
  {
    SubCategory(row, Joins.Nested(row.mapping))
  }

  // ----- the list filter -----

  datatype Criteria = Criteria(searchQuery: string, selectedRegions: seq<RegionOption>, filterCategory: Id)

  /** The lower-cased query occurs in the name, the description or the parent category name. */
  predicate TextMatch(s: SubCategory, query: string)
  {
    || Text.Includes(Text.Lower(s.row.name), query)
    || (s.row.description.Some? && Text.Includes(Text.Lower(s.row.description.value), query))
    || (s.row.category.Some? && Text.Includes(Text.Lower(s.row.category.value.name), query))
  }

  /** `s.regions?.some(region => selected.some(sr => same(sr.id, region.id)))` */
  predicate SharesRegion(selected: seq<RegionOption>, s: SubCategory, same: (Id, Id) -> bool)
  {
    s.regions.Some? &&
    exists i, j :: 0 <= i < |s.regions.value| && 0 <= j < |selected| && same(selected[j].id, s.regions.value[i].id)
  }

  predicate SearchOk(c: Criteria, s: SubCategory)
  {
    c.searchQuery == "" || TextMatch(s, Text.Lower(c.searchQuery))
  }

  predicate RegionOk(c: Criteria, s: SubCategory, same: (Id, Id) -> bool)
  {
    |c.selectedRegions| == 0 || SharesRegion(c.selectedRegions, s, same)
  }

  predicate CategoryOk(c: Criteria, s: SubCategory)
  {
    !Truthy(c.filterCategory) || StrictEquals(s.row.categoryId, c.filterCategory)
  }

  /** The three criteria joined by AND, each unconstrained when empty. */
  predicate Keeps(c: Criteria, s: SubCategory, same: (Id, Id) -> bool)
  {
    SearchOk(c, s) && RegionOk(c, s, same) && CategoryOk(c, s)
  }

  /** The filter effect, stage by stage, with the region id comparison as a parameter. */
  function FilterWith(subs: seq<SubCategory>, c: Criteria, same: (Id, Id) -> bool): seq<SubCategory>
  {
    var searched := if c.searchQuery != "" then Filter(s => TextMatch(s, Text.Lower(c.searchQuery)), subs) else subs;
    var regioned := if |c.selectedRegions| > 0 then Filter(s => SharesRegion(c.selectedRegions, s, same), searched) else searched;
    if Truthy(c.filterCategory) then Filter((s: SubCategory) => StrictEquals(s.row.categoryId, c.filterCategory), regioned) else regioned
  }

  /** `===` on ids, as the page compares region ids. */
  function StrictSame(): (Id, Id) -> bool
  {
    (a, b) => StrictEquals(a, b)
  }

  /** Comparison of the ids' string forms, as the page evidently intends. */
  function TextSame(): (Id, Id) -> bool
  {
    (a, b) => JsString(a) == JsString(b)
  }

  /** The list as the page computes it. */
  function FilterAsWritten(subs: seq<SubCategory>, c: Criteria): seq<SubCategory>
  {
    FilterWith(subs, c, StrictSame())
  }

  /** The list with region ids compared through `String`. */
  function FilterCorrected(subs: seq<SubCategory>, c: Criteria): seq<SubCategory>
  {
    FilterWith(subs, c, TextSame())
  }

  /** The search stage is a filter by `SearchOk`. */
  lemma SearchStageAsFilter(subs: seq<SubCategory>, c: Criteria)
    ensures (if c.searchQuery != "" then Filter(s => TextMatch(s, Text.Lower(c.searchQuery)), subs) else subs)
            == Filter(s => SearchOk(c, s), subs)
  {
    if c.searchQuery != "" {
      FilterCongruent(s => TextMatch(s, Text.Lower(c.searchQuery)), s => SearchOk(c, s), subs);
    } else {
      FilterKeepsAll(s => SearchOk(c, s), subs);
    }
  }

  /** The region stage is a filter by `RegionOk`. */
  lemma RegionStageAsFilter(a: seq<SubCategory>, c: Criteria, same: (Id, Id) -> bool)
    ensures (if |c.selectedRegions| > 0 then Filter(s => SharesRegion(c.selectedRegions, s, same), a) else a)
            == Filter(s => RegionOk(c, s, same), a)
  {
    if |c.selectedRegions| > 0 {
      FilterCongruent(s => SharesRegion(c.selectedRegions, s, same), s => RegionOk(c, s, same), a);
    } else {
      FilterKeepsAll(s => RegionOk(c, s, same), a);
    }
  }

  /** The category stage is a filter by `CategoryOk`. */
  lemma CategoryStageAsFilter(b: seq<SubCategory>, c: Criteria)
    ensures (if Truthy(c.filterCategory) then Filter((s: SubCategory) => StrictEquals(s.row.categoryId, c.filterCategory), b) else b)
            == Filter(s => CategoryOk(c, s), b)
  {
    if Truthy(c.filterCategory) {
      FilterCongruent((s: SubCategory) => StrictEquals(s.row.categoryId, c.filterCategory), s => CategoryOk(c, s), b);
    } else {
      FilterKeepsAll(s => CategoryOk(c, s), b);
    }
  }

  /** The stages make one order-preserving filter by the conjunction of the three criteria. */
  lemma FilterWithIsConjunction(subs: seq<SubCategory>, c: Criteria, same: (Id, Id) -> bool)
    ensures FilterWith(subs, c, same) == Filter(s => Keeps(c, s, same), subs)
    ensures IsSubsequence(FilterWith(subs, c, same), subs)
  {
    var sp := s => SearchOk(c, s);
    var rp := s => RegionOk(c, s, same);
    var cp := s => CategoryOk(c, s);
    var sr := s => SearchOk(c, s) && RegionOk(c, s, same);
    var a := if c.searchQuery != "" then Filter(s => TextMatch(s, Text.Lower(c.searchQuery)), subs) else subs;
    SearchStageAsFilter(subs, c);
    var b := if |c.selectedRegions| > 0 then Filter(s => SharesRegion(c.selectedRegions, s, same), a) else a;
    RegionStageAsFilter(a, c, same);
    FilterFilter(sp, rp, sr, subs);
    assert b == Filter(sr, subs);
    CategoryStageAsFilter(b, c);
    FilterFilter(sr, cp, s => Keeps(c, s, same), subs);
    FilterIsSubsequence(s => Keeps(c, s, same), subs);
  }

  /** A chosen category, numeric or textual, keeps exactly the rows of that category id:
      a numeric selection matches numeric `category_id`s and never their decimal spelling. */
  lemma CategorySelectionKeepsSameId(subs: seq<SubCategory>, c: Criteria, same: (Id, Id) -> bool, s: SubCategory)
    requires Truthy(c.filterCategory) && s in subs
    ensures CategoryOk(c, s) <==> s.row.categoryId == c.filterCategory
    ensures s in FilterWith(subs, c, same) <==> SearchOk(c, s) && RegionOk(c, s, same) && s.row.categoryId == c.filterCategory
  {
    StrictEqualsIsEquality(s.row.categoryId, c.filterCategory);
    FilterWithIsConjunction(subs, c, same);
    var r := Filter(s => Keeps(c, s, same), subs);
    if s in r {
      var i :| 0 <= i < |r| && r[i] == s;
    }
    var j :| 0 <= j < |subs| && subs[j] == s;
  }

  /** A row without a mapping list is dropped by any region selection. */
  lemma UndefinedRegionsDropped(c: Criteria, s: SubCategory, same: (Id, Id) -> bool)
    requires |c.selectedRegions| > 0 && s.regions.None?
    ensures !Keeps(c, s, same)
  {
  }

  /** The region master list as handed to the widget: `String(region.id)`, `code || ''`. */
  function ConvertRegions(regions: seq<DbRegion>): (r: seq<RegionOption>)
    ensures |r| == |regions|
    ensures forall i :: 0 <= i < |r| ==> r[i].id == Str(Decimal.IntToDecimal(regions[i].id)) && r[i].name == regions[i].name
  {
    seq(|regions|, i requires 0 <= i < |regions| => RegionOption(Str(JsString(Num(regions[i].id))), regions[i].name, regions[i].code.GetOr("")))
  }

  /** Every region nested in a fetched row carries the numeric id of the `regions` table. */
  predicate NumericRegionIds(s: SubCategory)
  {
    s.regions.Some? ==> forall i :: 0 <= i < |s.regions.value| ==> s.regions.value[i].id.Num?
  }

  /** As written, a string selected id is never `===` a numeric fetched id. */
  lemma AsWrittenNeverShares(c: Criteria, s: SubCategory)
    requires forall j :: 0 <= j < |c.selectedRegions| ==> c.selectedRegions[j].id.Str?
    requires NumericRegionIds(s)
    ensures !SharesRegion(c.selectedRegions, s, StrictSame())
  {
    if s.regions.Some? {
      forall i, j | 0 <= i < |s.regions.value| && 0 <= j < |c.selectedRegions|
        ensures !StrictSame()(c.selectedRegions[j].id, s.regions.value[i].id)
      {
        StrictEqualsIsEquality(c.selectedRegions[j].id, s.regions.value[i].id);
      }
    }
  }

  /** Hence, as written, choosing any region from the widget (whose ids are strings) empties the list. */
  lemma AsWrittenRegionFilterDropsAll(subs: seq<SubCategory>, c: Criteria)
    requires |c.selectedRegions| > 0
    requires forall j :: 0 <= j < |c.selectedRegions| ==> c.selectedRegions[j].id.Str?
    requires forall k :: 0 <= k < |subs| ==> NumericRegionIds(subs[k])
    ensures FilterAsWritten(subs, c) == []
  {
    FilterWithIsConjunction(subs, c, StrictSame());
    forall k | 0 <= k < |subs|
      ensures !Keeps(c, subs[k], StrictSame())
    {
      AsWrittenNeverShares(c, subs[k]);
    }
    FilterNone(s => Keeps(c, s, StrictSame()), subs);
  }

  /** The widget's region options all carry string ids. */
  lemma ConvertedIdsAreStrings(regions: seq<DbRegion>, sel: seq<RegionOption>)
    requires forall j :: 0 <= j < |sel| ==> sel[j] in ConvertRegions(regions)
    ensures forall j :: 0 <= j < |sel| ==> sel[j].id.Str?
  {
    forall j | 0 <= j < |sel|
      ensures sel[j].id.Str?
    {
      var n :| 0 <= n < |ConvertRegions(regions)| && ConvertRegions(regions)[n] == sel[j];
    }
  }

  /** A one-row witness: region 1 selected, the row mapped to region 1, and still dropped. */
  lemma AsWrittenWitness()
    ensures var row := Row(Str("s"), "Linen", "linen", None, None, None, Str("c"), 0, None, Some([Some(RegionRef(Num(1), "Lisbon", None))]));
            var sel := ConvertRegions([DbRegion(1, "Lisbon", None)]);
            && FilterCorrected([Reconstruct(row)], Criteria("", sel, Str(""))) == [Reconstruct(row)]
            && FilterAsWritten([Reconstruct(row)], Criteria("", sel, Str(""))) == []
  {
    var row := Row(Str("s"), "Linen", "linen", None, None, None, Str("c"), 0, None, Some([Some(RegionRef(Num(1), "Lisbon", None))]));
    var s := Reconstruct(row);
    var sel := ConvertRegions([DbRegion(1, "Lisbon", None)]);
    var c := Criteria("", sel, Str(""));
    assert Wrap([RegionRef(Num(1), "Lisbon", None)]) == [Some(RegionRef(Num(1), "Lisbon", None))];
    Joins.NestedOfLiveRows([RegionRef(Num(1), "Lisbon", None)]);
    assert s.regions == Some([RegionRef(Num(1), "Lisbon", None)]);
    assert TextSame()(sel[0].id, s.regions.value[0].id);
    FilterWithIsConjunction([s], c, TextSame());
    assert Keeps(c, s, TextSame());
    FilterKeepsAll(x => Keeps(c, x, TextSame()), [s]);
    AsWrittenRegionFilterDropsAll([s], c);
  }

  /** Corrected: with widget selections and fetched rows, a row is kept by the region stage
      exactly when one selected region is one of its regions, by numeric id. */
  lemma CorrectedRegionFilterMatchesIds(s: SubCategory, regions: seq<DbRegion>)
    requires NumericRegionIds(s) && s.regions.Some?
    ensures SharesRegion(ConvertRegions(regions), s, TextSame()) <==>
              exists i, j :: 0 <= i < |s.regions.value| && 0 <= j < |regions| && s.regions.value[i].id == Num(regions[j].id)
  {
    var sel := ConvertRegions(regions);
    var rs := s.regions.value;
    forall i, j | 0 <= i < |rs| && 0 <= j < |regions|
      ensures TextSame()(sel[j].id, rs[i].id) <==> rs[i].id == Num(regions[j].id)
    {
      ConvertedIdMatches(regions[j].id, rs[i].id);
    }
  }

  /** A converted option matches a numeric id exactly when the numbers are equal. */
  lemma ConvertedIdMatches(n: int, id: Id)
    requires id.Num?
    ensures TextSame()(Str(Decimal.IntToDecimal(n)), id) <==> id == Num(n)
  {
    StringOfNumInjective(n, id.n);
  }

  /** The region handler stores the widget's choice with ids passed through `String`. */
  function RegionChange(newRegions: seq<RegionOption>): (r: seq<RegionOption>)
    ensures |r| == |newRegions|
    ensures forall i :: 0 <= i < |r| ==> r[i].id.Str? && r[i].name == newRegions[i].name && r[i].code == newRegions[i].code
    ensures forall i :: 0 <= i < |r| ==> JsString(r[i].id) == JsString(newRegions[i].id)
  {
    seq(|newRegions|, i requires 0 <= i < |newRegions| => RegionOption(Str(JsString(newRegions[i].id)), newRegions[i].name, newRegions[i].code))
  }

  /** Widget choices already hold string ids, so the conversion leaves them as they are. */
  lemma RegionChangeKeepsWidgetChoice(newRegions: seq<RegionOption>)
    requires forall i :: 0 <= i < |newRegions| ==> newRegions[i].id.Str?
    ensures RegionChange(newRegions) == newRegions
  {
    assert forall i :: 0 <= i < |newRegions| ==> RegionChange(newRegions)[i] == newRegions[i];
  }

  // ----- the edit dialog and the save -----

  datatype Form = Form(
    name: string,
    description: Option<string>,
    categoryId: Id,
    orderIndex: int,
    imageUrl: Option<string>,
    iconUrl: Option<string>,
    selectedRegions: seq<RegionOption>)

  const BlankForm := Form("", Some(""), Str(""), 0, None, None, [])

  datatype Dialog = Dialog(open: bool, editingId: Option<Id>, form: Form, imageTab: int, iconTab: int)

  /** The region options the form starts from: `String(r.id)`, `code || ''`, `?? []`. */
  function FormRegions(regions: Option<seq<RegionRef>>): (r: seq<RegionOption>)
    ensures regions.None? ==> r == []
    ensures regions.Some? ==> |r| == |regions.value|
    ensures regions.Some? ==>
              forall i :: 0 <= i < |r| ==> r[i].id == Str(JsString(regions.value[i].id)) && r[i].name == regions.value[i].name
                                           && r[i].code == regions.value[i].code.GetOr("")
  {
    match regions
    case None => []
    case Some(rs) => seq(|rs|, i requires 0 <= i < |rs| => RegionOption(Str(JsString(rs[i].id)), rs[i].name, rs[i].code.GetOr("")))
  }

  /** "Edit" on a row, or "Add Subcategory" without one. */
  function Open(d: Dialog, s: Option<SubCategory>): (r: Dialog)
    ensures r.open && r.imageTab == d.imageTab && r.iconTab == d.iconTab
    ensures s.None? ==> r.editingId.None? && r.form == BlankForm
    ensures s.Some? ==> r.editingId == Some(s.value.row.id)
    ensures s.Some? ==> r.form.name == s.value.row.name && r.form.description == s.value.row.description
                        && r.form.categoryId == s.value.row.categoryId && r.form.orderIndex == s.value.row.orderIndex
                        && r.form.imageUrl == s.value.row.imageUrl && r.form.iconUrl == s.value.row.iconUrl
                        && r.form.selectedRegions == FormRegions(s.value.regions)
  {
    match s
    case None => d.(open := true, editingId := None, form := BlankForm)
    case Some(sc) =>
      d.(open := true, editingId := Some(sc.row.id),
         form := Form(sc.row.name, sc.row.description, sc.row.categoryId, sc.row.orderIndex, sc.row.imageUrl, sc.row.iconUrl, FormRegions(sc.regions)))
  }

  /** Cancel, or the end of a successful save. */
  function Close(d: Dialog): (r: Dialog)
    ensures !r.open && r.editingId.None? && r.form == BlankForm && r.imageTab == 0 && r.iconTab == 0
  {
    Dialog(false, None, BlankForm, 0, 0)
  }

  /** Closing after opening forgets the row: the dialog is the same whichever row was opened. */
  lemma CloseForgetsRow(d: Dialog, a: Option<SubCategory>, b: Option<SubCategory>)
    ensures Close(Open(d, a)) == Close(Open(d, b))
  {
  }

  datatype Payload = Payload(name: string, slug: string, description: Option<string>, categoryId: Id, orderIndex: int, imageUrl: Option<string>, iconUrl: Option<string>)

  /** `region_subcategory_mapping` rows: the subcategory id and `Number(region.id)` (`None` for NaN). */
  type MappingRow = Joins.Link<Id, Option<int>>

  function RegionNumbers(selected: seq<RegionOption>): (r: seq<Option<int>>)
    ensures |r| == |selected|
    ensures forall i :: 0 <= i < |r| ==> r[i] == JsNumber(selected[i].id)
  {
    seq(|selected|, i requires 0 <= i < |selected| => JsNumber(selected[i].id))
  }

  function MappingRows(owner: Id, selected: seq<RegionOption>): (r: seq<MappingRow>)
    ensures |r| == |selected|
    ensures forall i :: 0 <= i < |r| ==> r[i].owner == owner && r[i].target == JsNumber(selected[i].id)
  {
    Joins.LinkRows(owner, RegionNumbers(selected))
  }

  /** Opening a fetched row and saving it unchanged writes back mapping rows naming the same
      numeric region ids, in the same order. */
  lemma MappingRowsRoundTrip(owner: Id, regions: seq<RegionRef>)
    requires forall i :: 0 <= i < |regions| ==> regions[i].id.Num?
    ensures var rows := MappingRows(owner, FormRegions(Some(regions)));
            |rows| == |regions| && forall i :: 0 <= i < |rows| ==> rows[i].target == Some(regions[i].id.n)
  {
    var sel := FormRegions(Some(regions));
    forall i | 0 <= i < |regions|
      ensures JsNumber(sel[i].id) == Some(regions[i].id.n)
    {
      NumberOfString(regions[i].id.n);
    }
  }

  /** The object sent to update or insert: URL keys only when non-empty. */
  function BuildPayload(form: Form, slugify: string -> string, imageUrl: string, iconUrl: string): (p: Payload)
    ensures p.name == form.name && p.slug == slugify(form.name) && p.description == form.description
    ensures p.categoryId == form.categoryId && p.orderIndex == form.orderIndex
    ensures p.imageUrl.Some? <==> imageUrl != ""
    ensures p.iconUrl.Some? <==> iconUrl != ""
    ensures p.imageUrl.Some? ==> p.imageUrl.value == imageUrl
    ensures p.iconUrl.Some? ==> p.iconUrl.value == iconUrl
  {
    Payload(form.name, slugify(form.name), form.description, form.categoryId, form.orderIndex,
            Persist.OptionalKey(imageUrl), Persist.OptionalKey(iconUrl))
  }

  /** Saving a row's dialog untouched writes back the row's own name, description, category,
      order and (when the row has them) URLs. */
  lemma OpenThenPayloadKeepsRow(d: Dialog, s: SubCategory, slugify: string -> string)
    ensures var p := BuildPayload(Open(d, Some(s)).form, slugify, s.row.imageUrl.GetOr(""), s.row.iconUrl.GetOr(""));
            && p.name == s.row.name && p.description == s.row.description
            && p.categoryId == s.row.categoryId && p.orderIndex == s.row.orderIndex
            && (s.row.imageUrl.Some? && s.row.imageUrl.value != "" ==> p.imageUrl == s.row.imageUrl)
            && (s.row.iconUrl.Some? && s.row.iconUrl.value != "" ==> p.iconUrl == s.row.iconUrl)
  {
  }

  /** `if (editingId)`: an empty id string takes the create path. */
  function EditingKey(d: Dialog): Option<Id>
  {
    if d.editingId.Some? && Truthy(d.editingId.value) then d.editingId else None
  }

  /** Submit: resolve the two URLs (uploads first), then update or create and rewrite the
      mappings; the mapping delete reply is not checked. */
  function Submit(d: Dialog, slugify: string -> string, image: Persist.Upload, icon: Persist.Upload, replies: Persist.Replies<Id>)
    : (r: Persist.Run<Id, Payload, MappingRow>)
    ensures image.UploadFailed? || icon.UploadFailed? ==> r == Persist.Run([], Persist.Failed)
    ensures !image.UploadFailed? && !icon.UploadFailed? ==>
              var p := BuildPayload(d.form, slugify, Persist.ResolveUrl(d.form.imageUrl, image).value, Persist.ResolveUrl(d.form.iconUrl, icon).value);
              r == Persist.Save(EditingKey(d), p, owner => MappingRows(owner, d.form.selectedRegions), false, replies)
  {
    var imageUrl := Persist.ResolveUrl(d.form.imageUrl, image);
    var iconUrl := Persist.ResolveUrl(d.form.iconUrl, icon);
    if imageUrl.Err? || iconUrl.Err? then Persist.Run([], Persist.Failed)
    else
      var p := BuildPayload(d.form, slugify, imageUrl.value, iconUrl.value);
      Persist.Save(EditingKey(d), p, owner => MappingRows(owner, d.form.selectedRegions), false, replies)
  }

  /** A successful save of an edited subcategory inserts one mapping row per selected region,
      in order, after deleting the old ones; an empty selection inserts nothing. */
  lemma SubmitReplacesMappings(d: Dialog, slugify: string -> string, image: Persist.Upload, icon: Persist.Upload, replies: Persist.Replies<Id>)
    requires EditingKey(d).Some?
    requires Submit(d, slugify, image, icon, replies).outcome == Persist.Saved
    ensures var r := Submit(d, slugify, image, icon, replies);
            var key := EditingKey(d).value;
            && Persist.DeleteMappingsOf(key) in r.calls
            && (|d.form.selectedRegions| > 0 <==> Persist.InsertMappings(MappingRows(key, d.form.selectedRegions)) in r.calls)
            && forall i, j :: 0 <= i < |r.calls| && 0 <= j < |r.calls| && r.calls[i].DeleteMappingsOf? && r.calls[j].InsertMappings? ==> i < j
  {
    var p := BuildPayload(d.form, slugify, Persist.ResolveUrl(d.form.imageUrl, image).value, Persist.ResolveUrl(d.form.iconUrl, icon).value);
    var rowsFor := owner => MappingRows(owner, d.form.selectedRegions);
    Persist.SavedWritesSelection(EditingKey(d), p, rowsFor, false, replies);
    Persist.DeleteBeforeInsert(EditingKey(d), p, rowsFor, false, replies);
  }
}

=== FILE: text.dfy ===
/** The string primitives the filters and validators rely on: `toLowerCase`,
    `String.prototype.includes` and `String.prototype.trim`. */
module Text {

  /** ASCII lower-casing of one character (JavaScript's `toLowerCase` beyond ASCII is not modelled). */
  function LowerChar(c: char): char
  {
    if 'A' <= c <= 'Z' then (c as int + 32) as char else c
  }

  /** `s.toLowerCase()`, restricted to ASCII letters. */
  function Lower(s: string): (r: string)
    ensures |r| == |s|
    ensures forall i :: 0 <= i < |s| ==> r[i] == LowerChar(s[i])
  {
    seq(|s|, i requires 0 <= i < |s| => LowerChar(s[i]))
  }

  /** `q` occurs in `s` at position `i`. */
  predicate OccursAt(s: string, q: string, i: nat)
  {
    i + |q| <= |s| && s[i..i + |q|] == q
  }

  /** `s.includes(q)`: the query occurs somewhere in `s`; the empty query occurs everywhere. */
  function Includes(s: string, q: string): (r: bool)
    ensures r <==> exists i: nat :: OccursAt(s, q, i)
    decreases |s|
  {
    if |q| <= |s| && s[..|q|] == q then
      assert OccursAt(s, q, 0);
      true
    else if |s| == 0 then
      false
    else
      var r := Includes(s[1..], q);
      assert r ==> exists i: nat :: OccursAt(s, q, i) by {
        if r {
          var i: nat :| OccursAt(s[1..], q, i);
          assert s[1..][i..i + |q|] == s[i + 1..i + 1 + |q|];
          assert OccursAt(s, q, i + 1);
        }
      }
      assert (exists i: nat :: OccursAt(s, q, i)) ==> r by {
        if exists i: nat :: OccursAt(s, q, i) {
          var i: nat :| OccursAt(s, q, i);
          assert i != 0;
          assert s[1..][i - 1..i - 1 + |q|] == s[i..i + |q|];
          assert OccursAt(s[1..], q, i - 1);
        }
      }
      r
  }

  /** The characters `String.prototype.trim` removes: ECMAScript's WhiteSpace and LineTerminator. */
  predicate IsJsWhitespace(c: char)
  {
    var n := c as int;
    || n == 0x09 || n == 0x0A || n == 0x0B || n == 0x0C || n == 0x0D || n == 0x20
    || n == 0xA0 || n == 0x1680 || (0x2000 <= n <= 0x200A)
    || n == 0x2028 || n == 0x2029 || n == 0x202F || n == 0x205F || n == 0x3000 || n == 0xFEFF
  }

  function TrimStart(s: string): (r: string)
    ensures |r| <= |s| && r == s[|s| - |r|..]
    ensures forall i :: 0 <= i < |s| - |r| ==> IsJsWhitespace(s[i])
    ensures |r| > 0 ==> !IsJsWhitespace(r[0])
    decreases |s|
  {
    if |s| > 0 && IsJsWhitespace(s[0]) then
      var r := TrimStart(s[1..]);
      assert r == s[|s| - |r|..];
      assert forall i :: 1 <= i < |s| - |r| ==> s[i] == s[1..][i - 1];
      r
    else s
  }

  function TrimEnd(s: string): (r: string)
    ensures |r| <= |s| && r == s[..|r|]
    ensures forall i :: |r| <= i < |s| ==> IsJsWhitespace(s[i])
    ensures |r| > 0 ==> !IsJsWhitespace(r[|r| - 1])
  {
    if |s| > 0 && IsJsWhitespace(s[|s| - 1]) then TrimEnd(s[..|s| - 1]) else s
  }

  /** `r` sits at position `a` of `s` with only whitespace before and after it. */
  predicate PaddedAt(s: string, r: string, a: nat)
  {
    && OccursAt(s, r, a)
    && (forall i :: 0 <= i < a ==> IsJsWhitespace(s[i]))
    && (forall i :: a + |r| <= i < |s| ==> IsJsWhitespace(s[i]))
  }

  /** A whitespace-only prefix cut from `s`, then a whitespace-only suffix cut from the rest,
      leaves `r` padded by whitespace in `s`. */
  lemma PaddingComposes(s: string, t: string, r: string)
    requires |t| <= |s| && t == s[|s| - |t|..]
    requires forall i :: 0 <= i < |s| - |t| ==> IsJsWhitespace(s[i])
    requires |r| <= |t| && r == t[..|r|]
    requires forall i :: |r| <= i < |t| ==> IsJsWhitespace(t[i])
    ensures PaddedAt(s, r, |s| - |t|)
  {
    var a := |s| - |t|;
    assert r == s[a..a + |r|];
    forall i | a + |r| <= i < |s|
      ensures IsJsWhitespace(s[i])
    {
      assert s[i] == t[i - a];
    }
  }

  /** `s.trim()`: the longest infix of `s` that neither starts nor ends with whitespace. */
  function Trim(s: string): (r: string)
    ensures exists a: nat :: PaddedAt(s, r, a)
    ensures |r| > 0 ==> !IsJsWhitespace(r[0]) && !IsJsWhitespace(r[|r| - 1])
    ensures |r| == 0 <==> forall i :: 0 <= i < |s| ==> IsJsWhitespace(s[i])
  {
    var t := TrimStart(s);
    var r := TrimEnd(t);
    PaddingComposes(s, t, r);
    // A non-empty `t` starts with a visible character, which `TrimEnd` keeps.
    assert |t| > 0 ==> !IsJsWhitespace(t[0]);
    r
  }

  /** A string with no surrounding whitespace is its own trim. */
  lemma TrimUnpadded(s: string)
    requires |s| > 0 && !IsJsWhitespace(s[0]) && !IsJsWhitespace(s[|s| - 1])
    ensures Trim(s) == s
  {
  }

  /** Trimming the empty string gives the empty string. */
  lemma TrimEmpty()
    ensures Trim("") == ""
  {
    assert |Trim("")| == 0;
  }
}

=== FILE: utf8.dfy ===
/** `new TextEncoder().encode(s)`: UTF-8 encoding of a string of Unicode scalar values. */
module Utf8 {
  import opened Bytes

  /** The UTF-8 octets of one scalar value (one to four of them). */
  function EncodeChar(c: char): (r: seq<byte>)
    ensures 1 <= |r| <= 4
    ensures c as int < 0x80 <==> |r| == 1
    ensures c as int < 0x80 ==> r == [c as int]
  {
    var n := c as int;
    if n < 0x80 then [n]
    else if n < 0x800 then [0xC0 + n / 0x40, 0x80 + n % 0x40]
    else if n < 0x10000 then [0xE0 + n / 0x1000, 0x80 + (n / 0x40) % 0x40, 0x80 + n % 0x40]
    else [0xF0 + n / 0x40000, 0x80 + (n / 0x1000) % 0x40, 0x80 + (n / 0x40) % 0x40, 0x80 + n % 0x40]
  }

  function Encode(s: string): (r: seq<byte>)
    ensures |r| >= |s|
    decreases |s|
  {
    if |s| == 0 then [] else EncodeChar(s[0]) + Encode(s[1..])
  }

  predicate IsAscii(s: string)
  {
    forall i :: 0 <= i < |s| ==> s[i] as int < 0x80
  }

  /** An ASCII string encodes to its character codes, one octet each. */
  lemma {:induction false} EncodeAscii(s: string)
    requires IsAscii(s)
    ensures |Encode(s)| == |s|
    ensures forall i :: 0 <= i < |s| ==> Encode(s)[i] == s[i] as int
    decreases |s|
  {
    if |s| > 0 {
      EncodeAscii(s[1..]);
    }
  }
}

=== FILE: wrappers.dfy ===
/** Failure-compatible wrappers shared by the whole model: JavaScript's `null`/`undefined`
    and thrown errors are represented explicitly by these two datatypes. */
module Wrappers {

  /** A value that may be absent (`null` or `undefined` in the source). */
  datatype Option<+T> = None | Some(value: T) {

    /** The wrapped value, or `default` when absent (JavaScript's `x ?? default`). */
    function GetOr(default: T): T {
      match this
      case Some(v) => v
      case None => default
    }
  }

  /** The outcome of a step that either produces a value or throws an error. */
  datatype Result<+R, +E> = Ok(value: R) | Err(error: E)
}
